=== FILE: README.md ===
# LLMFLOW flow engine in Dafny

This project models the flow execution engine of LLMFLOW.

A **flow** is a list of **steps**. Each step holds **prompt blocks**. A block has:
- a prompt template, a model name, `max_tokens` and a temperature;
- optional external data (web, API, TXT or CSV source);
- optional semantic-search settings;
- optional save settings;
- references `(step, block)` to the blocks whose outputs it consumes.

Running a flow processes the steps in order. For each block of a step, the engine:
1. collects the outputs of the blocks it references in earlier steps;
2. loads its external data;
3. optionally narrows the texts to the best-ranked chunks found by semantic search;
4. prepends the surviving texts to the prompt.

The prompts of one step are then sent to the language models together. Every reply becomes the output of its block, and the block may save it.

The API client does three things:
- It routes a model name to its provider.
- It sends a prompt of at most 16000 tokens in one call.
- It splits a longer prompt into word groups that fit the budget. Each group is processed with an equal share of `max_tokens`. The joined reply is summarised when it is itself too long.

The flow can also be rendered as a Graphviz digraph, and built from a JSON-shaped configuration.

The modules follow the source files:

| module | file | content |
|---|---|---|
| `Wrappers` | `wrappers.dfy` | `Option`, `Result`, and `AllOk` (a loop that stops at the first exception) |
| `Text` | `text.dfy` | Python's `str.split()`, `" ".join`, slicing, `lower()` and `str(int)` |
| `Ranking` | `ranking.dfy` | `np.argsort` and the top-k slice `[-k:][::-1]` |
| `SemanticSearch` | `semantic_search.dfy` | `split_text` and `search` |
| `PromptBlocks` | `prompt_block.dfy` | the block, `add_input`, `load_external_data` and `save_block_output` |
| `Steps` | `step.dfy` | the step |
| `ApiClient` | `api_client.dfy` | routing, `generate_text`, `split_and_process` and `split_prompt` |
| `FlowManager` | `flow_manager.dfy` | `process_step`, `collect_input_texts` and `run_flow` |
| `FlowRuns` | `flow_run.dfy` | the order in which `run_flow` runs the steps, when it succeeds, and why it fails |
| `FlowGraph` | `flow_graph.dfy` | `generate_dot_code` |
| `Config` | `config.dfy` | `create_modular_flow` |

Everything the engine cannot compute itself is a parameter of the model:
- **Tokenizer** (`Backend.tokens`): any function from a string and a model to a natural number.
- **Provider call** (`Backend.complete`): any function from a call to a reply or an `APIException` message.
- **External-data loader** (`Env.load`): any function from a source to its text or an exception message.
- **Embedding similarity** (`Env.similarity`): any function from a query and a chunk to a real score.
- **`np.argsort`** (`Ranking.Argsorter`): any function that returns some ascending argsort. The order among equal scores is deliberately left open.

Every property proved holds for all choices of these functions.

The mutual recursion between `generate_text` and `split_and_process` takes a `fuel` argument. Running out of fuel is the outcome `OutOfFuel`, or the error `FuelExhausted` at the flow level.

Exceptions are modelled in two ways:
- **Errors the model covers** are `Err` values:
  - the `ValueError` of an unsupported model;
  - the `ValueError` of `range` with a zero step when `words_per_chunk == 0`;
  - the `KeyError` of a missing configuration key.

  These are not all the exceptions the code can raise on well-formed data. The services behind the oracles can fail in ways the model does not cover; "## Left out" lists them.
- **Crashes on malformed flows** are preconditions. These are the `IndexError` of a reference to a missing block and the `TypeError` of joining an output that is still `None`. A flow meets the preconditions when it satisfies `FlowManager.ReadyFrom`, for example when every reference points to an earlier step (`FlowManager.WellFormed`).

## Model

| member | source | states |
|---|---|---|
| Wrappers.AllOk | src/utils/config.py:17-45 | a loop over fallible steps succeeds exactly when every step does, keeps the values in order, and otherwise yields the first error, with every earlier step having succeeded |
| Text.Words | src/flow/semantic_search.py:15 | `str.split()` yields only non-empty whitespace-free words, and yields none exactly when the text is all whitespace |
| Text.WordsOfWord | src/flow/semantic_search.py:15 | a non-empty text without whitespace splits to itself as the only word |
| Text.WordsSplitAtSpace | src/flow/semantic_search.py:15 | a whitespace character separates words: the words of `a + c + b` are the words of `a` followed by the words of `b`, in order and with their multiplicity |
| Text.ConcatWords | src/flow/semantic_search.py:15 | the words laid end to end are exactly the non-whitespace characters of the text, in order, so splitting drops whitespace and nothing else |
| Text.WordsOfJoin | src/flow/semantic_search.py:15-16 | splitting words joined by single spaces gives back the same words (round trip of `split` and `" ".join`) |
| Text.Prefix | src/flow/flow_manager.py:119 | `prompt[:50]` is a prefix of the prompt; it has exactly 50 characters when the prompt is longer, and is the whole prompt otherwise |
| Text.LowerIdempotent | src/flow/prompt_block.py:57 | lower-casing an already lower-cased string changes nothing |
| Text.LowerMatches | src/flow/prompt_block.py:57 | `s.lower()` equals a string without upper-case letters exactly when `s` equals it up to the case of ASCII letters (an independent character-by-character definition) |
| Ranking.Insert | src/flow/semantic_search.py:28 | inserting an index adds exactly that index and keeps the indices in range |
| Ranking.InsertAscending | src/flow/semantic_search.py:28 | insertion keeps a score-ascending order ascending |
| Ranking.InsertDistinct | src/flow/semantic_search.py:28 | insertion of a new index keeps the indices distinct |
| Ranking.SortIndices | src/flow/semantic_search.py:28 | the sort is a permutation of `0..n-1` in ascending score order |
| Ranking.Argsort | src/flow/semantic_search.py:28 | an ascending argsort exists for every score list, so `np.argsort` is never asked the impossible |
| Ranking.ReverseInvolution | src/flow/semantic_search.py:28 | applying `[::-1]` twice gives the list back |
| Ranking.ReversePermutes | src/flow/semantic_search.py:28 | `[::-1]` only reorders: every element keeps its multiplicity |
| Ranking.SuffixSorted | src/flow/semantic_search.py:28 | the reversed suffix of an ascending argsort lists distinct indices, best score first |
| Ranking.SuffixDominates | src/flow/semantic_search.py:28 | no index dropped by the slice scores above a kept one, and the whole list is kept when the slice starts at 0 |
| Ranking.TopIndices | src/flow/semantic_search.py:28 | `argsort[-k:][::-1]` keeps `TopCount(n, k)` distinct indices, best first, each scoring at least as high as any dropped index, and every index when the count is `n` |
| SemanticSearch.ChunksShape | src/flow/semantic_search.py:16 | the chunks laid end to end are the words; there are `ceil(n / w)` chunks; every chunk but the last holds exactly `w` words, and the last holds 1 to `w` |
| SemanticSearch.ChunkAt | src/flow/semantic_search.py:16 | chunk `k` is exactly the slice `words[k*w : k*w+w]` |
| SemanticSearch.SplitTextRoundTrip | src/flow/semantic_search.py:14-16 | joining the chunks with spaces gives the text's words joined with spaces, so no word is lost, duplicated or reordered; there are no chunks exactly when the text is blank |
| SemanticSearch.SplitTextSizes | src/flow/semantic_search.py:14-16 | re-splitting chunk `i` gives the `i`-th group of `w` words; all chunks but the last hold `w` words, the last 1 to `w`, and there are `ceil(n / w)` chunks |
| SemanticSearch.SelectionOfTop | src/flow/semantic_search.py:28-29 | the returned pairs are the top-k chunks with their own scores, best first, none beaten by a dropped chunk |
| SemanticSearch.AllChunksKept | src/flow/semantic_search.py:28-29 | with `top_k` of 0 or at least the chunk count, every chunk is returned |
| SemanticSearch.Search | src/flow/semantic_search.py:22-29 | `search` returns `TopCount(chunks, top_k)` pairs that form a ranked selection of the chunks by similarity to the query, and all chunks when `top_k` is 0 or at least the chunk count, whatever order `np.argsort` gives to ties |
| PromptBlocks.NewBlock | src/flow/prompt_block.py:29-41 | a new block has no output and no input references |
| PromptBlocks.NewBlockDefaults | src/flow/prompt_block.py:29-41 | the defaults are `gpt-3.5-turbo`, 2000 tokens and temperature 0.7, with no external data, search or save settings |
| PromptBlocks.AddInput | src/flow/prompt_block.py:43-44 | `add_input` appends exactly one reference at the end and changes nothing else |
| PromptBlocks.LoadExternalData | src/flow/prompt_block.py:46-53 | no external data gives `""`; a successful load gives the loaded text; a failed load gives the fixed French prefix followed by the exception message, never an exception |
| PromptBlocks.SaveFormatIgnoresCase | src/flow/prompt_block.py:57-64 | the output is saved as TXT exactly when no format is given or the given format spells `txt` in any mix of upper and lower case, and as PDF exactly when it spells `pdf` |
| PromptBlocks.SaveBlockOutput | src/flow/prompt_block.py:55-69 | it saves exactly when save settings are truthy and the output is non-empty. The output goes as TXT exactly when the lower-cased format, defaulting to `txt`, is `txt`, and as PDF exactly when it is `pdf`. Any other format is rejected. The content is the output, under the configured file name |
| Steps.NewStep | src/flow/step.py:6-7 | a new step has no blocks |
| Steps.AddBlock | src/flow/step.py:9-10 | `add_block` appends the block at the end and keeps the earlier blocks |
| ApiClient.Route | src/api/api_client.py:20-27 | `gpt`/`text-davinci` prefixes go to OpenAI, then `claude` to Anthropic, then `mistral` to Mistral, each only when no earlier prefix matches; any other name is unsupported |
| ApiClient.PackFromConcat | src/api/api_client.py:65-85 | the groups built by the packing loop, laid end to end, are exactly the input words in order |
| ApiClient.PackFromShape | src/api/api_client.py:71-83 | every group is non-empty and within the token limit unless it is one word that alone exceeds it, and no group could have taken the first word of the next |
| ApiClient.SplitPromptSpec | src/api/api_client.py:65-85 | `split_prompt` keeps every word of the prompt in order. Its parts are non-empty, and there are none exactly for a blank prompt. Each part's word group is within the budget or is a single word, and no part could have taken the next part's first word |
| ApiClient.SplitPromptLoop | src/api/api_client.py:65-85 | the imperative loop of `split_prompt` computes the packing defined by `SplitPrompt` |
| ApiClient.GenerateText | src/api/api_client.py:18-39 | the only unsupported outcome is an unknown model, and every provider call issued goes to that model's provider with a prompt within 16000 tokens, never asking for more than `max_tokens` |
| ApiClient.SplitAndProcess | src/api/api_client.py:41-63 | splitting never meets an unsupported model, and every call it issues, summary included, is admissible for the caller's `max_tokens` |
| ApiClient.GenerateParts | src/api/api_client.py:46-50 | the parts loop yields one reply per part, and every call stays within the part's `max_tokens // len(parts)` share |
| ApiClient.ShareWithin | src/api/api_client.py:48 | the floor-divided share of a non-negative `max_tokens` is between 0 and `max_tokens` |
| ApiClient.DirectCall | src/api/api_client.py:29-39 | a prompt within 16000 tokens is sent as exactly one call with the block's settings. The reply is the provider's text, or the fixed failure message when the provider raises an `APIException` |
| ApiClient.PartsWithinBudget | src/api/api_client.py:46-50 | when every part fits, the parts are sent one call each, in order, with the share of `max_tokens`, and the replies are kept in order |
| ApiClient.SplitWithFittingParts | src/api/api_client.py:41-63 | with fitting parts, `split_and_process` makes one call per part in order. It returns the joined replies when they fit, and otherwise the generation for the summary prompt, whose calls follow the part calls |
| ApiClient.OverBudgetSplits | src/api/api_client.py:29-33 | a prompt over 16000 tokens is never sent whole: it is handed to `split_and_process` with the 16000-token limit, whose outcome `SplitWithFittingParts` describes |
| ApiClient.OversizedWordNeverFinishes | src/api/api_client.py:29-33 | a prompt that is one word over 16000 tokens is handed back unchanged to `split_and_process` at every level, so generation never finishes |
| FlowManager.NewManager | src/flow/flow_manager.py:19-23 | a new manager has no steps |
| FlowManager.AddStep | src/flow/flow_manager.py:25-26 | `add_step` appends the step and keeps the earlier steps and the search settings |
| FlowManager.PyIndex | src/flow/flow_manager.py:83 | a Python list index designates an element exactly when it lies in `-n .. n-1`; a non-negative index designates position `i`, and a negative one position `n + i` |
| FlowManager.EarlierRefs | src/flow/flow_manager.py:84-85 | exactly the references to earlier steps are kept |
| FlowManager.EarlierRefsAppend | src/flow/flow_manager.py:84-85 | the filter keeps order and multiplicity: one more reference at the end is kept at the end when it points to an earlier step, and dropped otherwise |
| FlowManager.CollectInputTexts | src/flow/flow_manager.py:82-85 | one text per reference to an earlier step, in declaration order, each the output of the referenced block |
| FlowManager.KeptChunks | src/flow/flow_manager.py:43-58 | an unsearched source contributes nothing. A searched one contributes `TopCount` chunks of its own text, ranked by similarity to the query (default `""`) with `top_k` defaulting to the manager's |
| FlowManager.SearchedTexts | src/flow/flow_manager.py:48-60 | the kept texts number the chunks kept from the previous outputs plus those kept from the external text |
| FlowManager.SearchedTextsChunks | src/flow/flow_manager.py:48-60 | the first kept texts are chunks of the joined previous outputs, and the rest are chunks of the external text |
| FlowManager.ResolveInputs | src/flow/flow_manager.py:38-63 | this fails only when a search must chunk text and `words_per_chunk` is 0. Without search, the inputs are the collected outputs followed by the external text when it is non-empty. With search, they are the searched chunks |
| FlowManager.AssemblePrompt | src/flow/flow_manager.py:65-67 | no inputs leave the prompt unchanged; otherwise the prompt is the inputs joined by newlines, a blank line, then the original prompt |
| FlowManager.PrepareBlock | src/flow/flow_manager.py:37-67 | preparing a block succeeds exactly when its inputs resolve, and changes only its prompt |
| FlowManager.FailedLoadReachesPrompt | src/flow/flow_manager.py:40-67 | without search, a failed fetch ends up in the prompt: the inputs are the collected outputs followed by the error message, and the prompt is those outputs, the message, a blank line and the original prompt |
| FlowManager.PrepareAll | src/flow/flow_manager.py:37-75 | the loop succeeds exactly when every block's inputs resolve. All blocks are then prepared in order with their settings unchanged. The only failure is a zero `words_per_chunk` |
| FlowManager.PreparedPrompts | src/flow/flow_manager.py:37-75 | each prepared prompt is the assembly of that block's resolved inputs with its original prompt |
| FlowManager.FirstUnsupported | src/flow/flow_manager.py:72-77 | an unsupported model is reported exactly when some block has one, and it is the first such block's model |
| FlowManager.GenerateTask | src/flow/flow_manager.py:72-75 | a task succeeds exactly when generation for its block completes, and carries that generation's text and calls |
| FlowManager.Gather | src/flow/flow_manager.py:77 | `gather` succeeds exactly when every task does. Results stay in block order, and the first unsupported model is the error |
| FlowManager.GenerateAll | src/flow/flow_manager.py:72-79 | gathering succeeds exactly when generation completes for every prepared block. Each block then receives the text generated from its own prompt and settings. A failure is the error of one of the blocks' tasks, never a chunking error |
| FlowManager.Commit | src/flow/flow_manager.py:78-80 | outputs are written to the step's blocks in order, each block's save action follows its own output, and the rest of the flow keeps its shape |
| FlowManager.ProcessPrepared | src/flow/flow_manager.py:72-80 | the step succeeds exactly when generation completes for every prepared block. Every block of the step then holds an output generated from its prepared prompt, and its save action follows that output. An unsupported-model error names a block's model, and a fuel error comes from a block whose generation ran out |
| FlowManager.ProcessStep | src/flow/flow_manager.py:28-80 | step 0 with a block that has input references returns without change. Otherwise the step is prepared, then generated, and only that step's blocks change. A zero-chunk error implies `words_per_chunk` is 0 |
| FlowManager.ReadyNext | src/flow/flow_manager.py:87-91 | processing step `i` keeps every later reference readable, so the next step can run |
| FlowManager.RunFrom | src/flow/flow_manager.py:87-91 | processing the steps in order from `i` leaves earlier steps untouched and gives every later block an output. A guarded step 0 is left as it was. What each block then holds is `FlowRuns.RunFromInOrder`'s concern |
| FlowManager.RunFlow | src/flow/flow_manager.py:87-91 | `run_flow` keeps the flow's shape and gives every block an output, except a guarded first step, which stays untouched. What each block then holds is `FlowRuns.RunFlowBlock`'s concern |
| FlowRuns.StepSucceeds | src/flow/flow_manager.py:28-80 | `process_step` succeeds exactly when the guard skips step 0, or every block of the step is prepared and the generation from each prepared prompt finishes |
| FlowRuns.StepRuns | src/flow/flow_manager.py:28-80 | after a successful `process_step`, a skipped step is unchanged and calls nothing; otherwise each block holds the prompt assembled from the inputs it resolves, the text generated from that prompt, that generation's calls, and the save that text leads to, with every other setting as given |
| FlowRuns.StepFailure | src/flow/flow_manager.py:28-80 | a failed step has its cause in one of its own blocks: a search meeting a chunk size of 0 with text to split, the reported unsupported model, or a generation from the prepared prompt that runs out of fuel |
| FlowRuns.RunFromInOrder | src/flow/flow_manager.py:87-91 | the loop from step `i` runs each later step on the state the steps before it left, changes no earlier step, and returns each step's calls and saves in step order |
| FlowRuns.RunFlowInOrder | src/flow/flow_manager.py:87-91 | `run_flow` runs the steps in ascending order, each on the state the earlier steps left, and each step's blocks are made as `process_step` makes them |
| FlowRuns.RunFlowBlock | src/flow/flow_manager.py:28-91 | in a finished run, each block that ran holds the prompt assembled from the inputs resolved once the earlier steps had run, and the text generated from that prompt; its calls and save are recorded at its step and position |
| FlowRuns.RunFromFailure | src/flow/flow_manager.py:87-91 | a failed loop from step `i` stopped at one step `u`; the steps before `u` ran in order, and the error has its cause in a block of step `u` |
| FlowRuns.RunFlowFailure | src/flow/flow_manager.py:28-91 | a failed `run_flow` stopped at a step `u` after steps `0..u-1` ran in order. The cause lies in a block of step `u`, on the state those steps left: a search meeting a chunk size of 0 with text to split, the reported unsupported model, or a generation from the prepared prompt that ran out of fuel |
| FlowRuns.RunFlowSucceeds | src/flow/flow_manager.py:28-91 | `run_flow` succeeds exactly when every block it runs has a routable model, no search of one meets a chunk size of 0 with text to split (the dependency outputs, or non-empty external data), and every generation it starts, on the prompts actually prepared during the run, finishes |
| FlowRuns.RunFlowNeeds | src/flow/flow_manager.py:28-91 | a finished run ran only such blocks, and every state its first steps can leave is the one it went through, so every generation prepared there finished |
| FlowRuns.FailureBreaksCondition | src/flow/flow_manager.py:28-91 | a run that stopped at some step had a block there that is not runnable or a generation there that did not finish: the failing half of `FlowRuns.RunFlowSucceeds` |
| FlowRuns.RanStepsAgree | src/flow/flow_manager.py:87-91 | two runs of the first steps of a flow agree on every step both ran: what each step makes is fixed by the state the steps before it left |
| FlowManager.WellFormedIsReady | src/flow/flow_manager.py:82-85 | a flow whose references all point to earlier existing blocks can be run |
| FlowManager.PlainBlockUnchanged | src/flow/flow_manager.py:62-67 | a block without inputs, external data or search keeps its prompt as written |
| FlowManager.ExternalSearchWithoutData | src/flow/flow_manager.py:55-58 | a search restricted to external data with no external data adds nothing to the prompt |
| FlowManager.TwoStages | src/flow/flow_manager.py:65-67 | a block reading the output of the first step gets that output, a blank line, then its own prompt |
| FlowGraph.StepColorCycle | src/flow/flow_manager.py:111-114 | the palette repeats every five steps and never repeats between consecutive steps |
| FlowGraph.GenerateDotCode | src/flow/flow_manager.py:104-126 | the graph text is the fixed header, then the body of the flow's rendered lines, then `}` |
| FlowGraph.RenderAllAt | src/flow/flow_manager.py:113-123 | entry `k` of the rendering is line `k` of the flow, rendered |
| FlowGraph.ConcatGroup | src/flow/flow_manager.py:120-123 | appending lines one after the other puts line `k` right after the lines before it, starts the next line where it ends, and ends the body with the last line, so the lines appear in the body in order |
| FlowGraph.BlockLinesMembers | src/flow/flow_manager.py:115-123 | a block contributes its node line and one edge per reference, nothing else |
| FlowGraph.StepLinesMembers | src/flow/flow_manager.py:113-123 | a step contributes exactly the lines of its blocks |
| FlowGraph.DotLinesMembers | src/flow/flow_manager.py:113-123 | the graph body holds a line exactly for each block and each declared reference; an edge is drawn even for a reference to the same or a later step |
| FlowGraph.DotLinesCount | src/flow/flow_manager.py:113-123 | the graph body has exactly one line per block plus one per declared reference, so a reference declared twice is drawn twice |
| FlowGraph.IntToStringInjective | src/flow/flow_manager.py:116 | distinct integers, negative ones included, render as distinct decimal strings |
| FlowGraph.NodeIdInjective | src/flow/flow_manager.py:116 | different `(step, block)` pairs get different node identifiers, so no two blocks share a node |
| Config.KindOf | src/utils/config.py:24-31 | exactly the names `web`, `api`, `txt` and `csv` select an external-data kind |
| Config.KindRoundTrip | src/utils/config.py:24-31 | every kind is selected by its own name |
| Config.BuildExternal | src/utils/config.py:20-31 | no key gives no data; a missing `type` or `source` is a `KeyError`; a known type gives data of that kind from that source; an unknown type silently gives no data |
| Config.AddInputs | src/utils/config.py:42-43 | the references are appended in configuration order and nothing else changes |
| Config.BuildBlock | src/utils/config.py:20-44 | a block is built exactly when its external-data entry is valid and `prompt` is present. Missing optional keys take the constructor defaults. Search and save settings pass through unchanged, and the references are kept in order |
| Config.BuildStep | src/utils/config.py:17-44 | `blocks` is required; the step holds one block per entry, in order, and the first failing entry's error is reported |
| Config.CreateModularFlow | src/utils/config.py:14-47 | the flow is built exactly when every step entry builds. It holds one step per entry in order, with the given chunk size and `top_k`, and otherwise reports the first error |
| Config.ErrorKeys | src/utils/config.py:14-47 | every construction error names one of `blocks`, `type`, `source` or `prompt` |
| Config.DescribeBlockRoundTrip | src/utils/config.py:33-43 | a block that has not run is rebuilt exactly from the configuration entry that spells out its settings |
| Config.ConfigRoundTrip | src/utils/config.py:14-47 | every flow whose blocks have not run is rebuilt exactly from its configuration; references are kept without any validation |

## Where the code and its documentation differ

The model follows the code in each case:
- **Silent guard on step 0.** A block with input references makes `process_step(0)` log a warning and return. No error is raised, and no block of step 0 runs (`FlowManager.ProcessStep`).
- **Failed fetch.** It yields a non-empty error text. That text is then searched or prepended like real data (`PromptBlocks.LoadExternalData`).
- **Ties.** `np.argsort` is not stable, so the order among equal scores is left open (`Ranking.Argsorter`).
- **`top_k` edge cases.** A `top_k` of 0 keeps every chunk, because the slice `[-0:]` is the whole list. A negative `top_k` drops the `|top_k|` lowest-scored chunks (`Ranking.TopCount`).
- **Summary call.** The summary prompt goes back through `generate_text`, so it may be split again rather than sent in a single call (`ApiClient.SplitAndProcess`).
- **One oversized word.** A prompt that is a single word over 16000 tokens for its model has no split that fits. `split_prompt` returns that word as its only part, so generation re-enters splitting without end (`ApiClient.OversizedWordNeverFinishes`). In a longer prompt, `split_prompt` counts each word with the `gpt-3.5-turbo` tokenizer, so such a word becomes a part of its own only when that count is over the limit.

## Left out

- The HTTP adapters of `src/api/model_api.py` (provider requests, `extract_text_from_response`, embeddings) and the external-data loaders are left out because they are network I/O. They are oracles here: `Backend.complete`, `Env.load` and `Env.similarity`.
- `num_tokens_from_string` is an external tokenizer, so it is the oracle `Backend.tokens`.
- `cosine_similarity` uses floating point and can produce NaN on zero vectors. It is folded into the real-valued oracle `Env.similarity`.
- `get_embeddings` is only a pass-through to the OpenAI adapter.
- Its `APIException` is not modelled. In the code it escapes `search` (src/flow/semantic_search.py:24-25) and `process_step`, because nothing catches it. The oracle `Env.similarity` is total, so a search here never fails for that reason.
- Provider errors other than `APIException` are not modelled. `generate_text` catches only `APIException` (src/api/api_client.py:37), so a connection error or a `KeyError` in `extract_text_from_response` escapes in the code. Here `Backend.complete` fails only with an `APIException` message.
- The external-data classes `WebData`, `APIData`, `TXTData` and `CSVData` are not defined in the files modelled. They appear as the four kinds of `PromptBlocks.ExternalKind`, with their type names as `generate_dot_code` prints them.
- Interleaving under `asyncio` is not modelled. `gather` is an order-preserving map, and each block's provider calls are kept as a separate list, because the interleaving of calls across blocks is not fixed.
- Writing files in `OutputSaver.save_txt` / `save_pdf` is I/O. The model returns the `SaveAction` to perform instead. A file name missing from the settings stays `None`, because the default name derives from the object's memory address (`id(self)`).
- `visualize_flow`, `display_step_results`, the `print`/`logging` calls and the `colorama` colouring are display-only.
- `load_steps_config` (JSON file reading), `run.py` and `src/utils/__init__.py` are program entry and I/O.
- FlowManager.RunFlow: the `IndexError` of a reference to a missing block and the `TypeError` of joining a `None` output are preconditions (`DepsReadable`, `ReadyFrom`), not error results.
  - This over-requires in one case: a block whose search reads only external data never joins its dependencies in the source, yet the model still asks them to be readable.
- FlowManager.ProcessStep: after a failure the model returns only the error. In the source, the prompts of blocks prepared before the exception have already been rewritten in place.
- ApiClient.GenerateText: the recursion depth is bounded by `fuel`. A run that needs more levels is `OutOfFuel` here; the source would instead end with Python's `RecursionError`, or keep recursing.
- Text.Lower: it lower-cases ASCII letters only. Python's `str.lower()` also folds non-ASCII letters, which only matters for the save-format name.
- The width and floating-point nature of `temperature` are not modelled (it is a `real`). `max_tokens` and the indices are unbounded integers, since Python integers are unbounded too.

=== FILE: api_client.dfy ===
/** `APIClient` (src/api/api_client.py): routing a model name to a provider,
    the 16000-token budget, greedy splitting of an oversized prompt into
    word groups, one generation per group, and the single summarisation
    call when the joined answers are still too long.

    The token estimator `num_tokens_from_string` and the provider round trip
    (HTTP request plus `extract_text_from_response`) are the oracles of a
    `Backend`. `generate_text` and `split_and_process` call each other
    without a bound, so the model carries `fuel`: each nested split spends
    one unit, and a run that exhausts it yields `OutOfFuel`. */
module ApiClient {
  import opened Wrappers
  import opened Text

  datatype Provider = OpenAI | Anthropic | Mistral

  /** One provider request, with the arguments `generate_text` hands to the
      provider adapter. */
  datatype Call = Call(provider: Provider, model: string, prompt: string,
                       temperature: real, maxTokens: int)

  /** `tokens(text, model)` is `num_tokens_from_string(text, model)`;
      `complete(call)` is the provider's extracted text, or the message of
      the `APIException` it raised. */
  datatype Backend = Backend(
    tokens: (string, string) -> nat,
    complete: Call -> Result<string, string>)

  const TokenLimit: nat := 16000
  /** The tokenizer `split_prompt` uses for every word, whatever the model. */
  const SplitterModel: string := "gpt-3.5-turbo"
  const GenerationFailed: string := "Erreur : Impossible de générer le texte."
  const SummaryPrefix: string := "Résumé du texte suivant :\n\n"

  /** The prefixes `generate_text` tests, in the order it tests them. */
  const Routes: seq<(string, Provider)> :=
    [("gpt", OpenAI), ("text-davinci", OpenAI), ("claude", Anthropic), ("mistral", Mistral)]

  function RouteIn(table: seq<(string, Provider)>, model: string): Option<Provider> {
    if table == [] then None
    else if StartsWith(model, table[0].0) then Some(table[0].1)
    else RouteIn(table[1..], model)
  }

  /** The provider of a model; `None` is the `ValueError("Unsupported
      model")` raised before the `try`. */
  function Route(model: string): (p: Option<Provider>)
    ensures p == Some(OpenAI) <==> StartsWith(model, "gpt") || StartsWith(model, "text-davinci")
    ensures p == Some(Anthropic) <==>
              !StartsWith(model, "gpt") && !StartsWith(model, "text-davinci")
              && StartsWith(model, "claude")
    ensures p == Some(Mistral) <==>
              !StartsWith(model, "gpt") && !StartsWith(model, "text-davinci")
              && !StartsWith(model, "claude") && StartsWith(model, "mistral")
    ensures p.None? <==>
              !StartsWith(model, "gpt") && !StartsWith(model, "text-davinci")
              && !StartsWith(model, "claude") && !StartsWith(model, "mistral")
  {
    var t1 := Routes[1..];
    var t2 := t1[1..];
    var t3 := t2[1..];
    assert RouteIn(t3, model) == (if StartsWith(model, "mistral") then Some(Mistral) else None) by {
      assert t3[1..] == [];
    }
    assert RouteIn(t2, model) == (if StartsWith(model, "claude") then Some(Anthropic) else RouteIn(t3, model));
    assert RouteIn(t1, model) == (if StartsWith(model, "text-davinci") then Some(OpenAI) else RouteIn(t2, model));
    RouteIn(Routes, model)
  }

  // ---------------------------------------------------------------------
  // split_prompt

  /** Sum of the per-word token counts of a group. */
  function Sum(cost: string -> nat, g: seq<string>): nat {
    if g == [] then 0 else cost(g[0]) + Sum(cost, g[1..])
  }

  lemma {:induction false} SumAppend(cost: string -> nat, g: seq<string>, w: string)
    ensures Sum(cost, g + [w]) == Sum(cost, g) + cost(w)
    decreases |g|
  {
    if g != [] {
      assert (g + [w])[1..] == g[1..] + [w];
      SumAppend(cost, g[1..], w);
    } else {
      assert g + [w] == [w];
    }
  }

  /** The loop of `split_prompt` from the state where `cur` is the group
      being built and `curTok` its token count. */
  function PackFrom(cost: string -> nat, ws: seq<string>, limit: nat,
                    cur: seq<string>, curTok: nat): seq<seq<string>>
    decreases |ws|
  {
    if ws == [] then (if cur == [] then [] else [cur])
    else
      var t := cost(ws[0]);
      if curTok + t > limit then
        (if cur == [] then [] else [cur]) + PackFrom(cost, ws[1..], limit, [ws[0]], t)
      else
        PackFrom(cost, ws[1..], limit, cur + [ws[0]], curTok + t)
  }

  /** The word groups `split_prompt` builds. */
  function Pack(cost: string -> nat, ws: seq<string>, limit: nat): seq<seq<string>> {
    PackFrom(cost, ws, limit, [], 0)
  }

  /** Every group is non-empty, and within the budget unless it is a single
      word that alone exceeds it. */
  predicate WellPacked(cost: string -> nat, groups: seq<seq<string>>, limit: nat) {
    forall i :: 0 <= i < |groups| ==>
      |groups[i]| > 0 && (Sum(cost, groups[i]) <= limit || |groups[i]| == 1)
  }

  /** No group could have taken the first word of the next one. */
  predicate Greedy(cost: string -> nat, groups: seq<seq<string>>, limit: nat)
    requires forall i :: 0 <= i < |groups| ==> |groups[i]| > 0
  {
    forall i :: 0 <= i < |groups| - 1 ==>
      Sum(cost, groups[i]) + cost(groups[i + 1][0]) > limit
  }

  /** What the loop keeps true of the group under construction. */
  predicate PackState(cost: string -> nat, limit: nat, cur: seq<string>, curTok: nat) {
    curTok == Sum(cost, cur) && (cur == [] || Sum(cost, cur) <= limit || |cur| == 1)
  }

  /** Packing keeps the words in order: the groups laid end to end are the
      current group followed by the remaining words. */
  lemma {:induction false} PackFromConcat(cost: string -> nat, ws: seq<string>, limit: nat,
                                          cur: seq<string>, curTok: nat)
    ensures Concat(PackFrom(cost, ws, limit, cur, curTok)) == cur + ws
    decreases |ws|
  {
    var r := PackFrom(cost, ws, limit, cur, curTok);
    if ws == [] {
      if cur != [] {
        assert Concat(r) == cur + Concat([]);
      }
      assert cur + ws == cur;
    } else {
      var w := ws[0];
      var t := cost(w);
      if curTok + t > limit {
        var first: seq<seq<string>> := if cur == [] then [] else [cur];
        var rest := PackFrom(cost, ws[1..], limit, [w], t);
        PackFromConcat(cost, ws[1..], limit, [w], t);
        assert r == first + rest;
        ConcatAppend(first, rest);
        assert Concat(first) == cur by {
          if cur != [] {
            assert Concat(first) == cur + Concat([]);
          }
        }
        assert cur + ws == cur + [w] + ws[1..];
      } else {
        PackFromConcat(cost, ws[1..], limit, cur + [w], curTok + t);
        assert cur + [w] + ws[1..] == cur + ws;
      }
    }
  }

  /** The group under construction opens the first group of the result. */
  lemma {:induction false} PackFromFirst(cost: string -> nat, ws: seq<string>, limit: nat,
                                         cur: seq<string>, curTok: nat)
    requires PackState(cost, limit, cur, curTok) && cur != []
    ensures |PackFrom(cost, ws, limit, cur, curTok)| > 0
    ensures |PackFrom(cost, ws, limit, cur, curTok)[0]| > 0
    ensures PackFrom(cost, ws, limit, cur, curTok)[0][0] == cur[0]
    ensures Sum(cost, cur) <= Sum(cost, PackFrom(cost, ws, limit, cur, curTok)[0])
    decreases |ws|
  {
    if ws != [] {
      var w := ws[0];
      var t := cost(w);
      if curTok + t <= limit {
        SumAppend(cost, cur, w);
        PackFromFirst(cost, ws[1..], limit, cur + [w], curTok + t);
        assert (cur + [w])[0] == cur[0];
      }
    }
  }

  /** Groups are non-empty, over budget only as a single word, and greedy. */
  lemma {:induction false} PackFromShape(cost: string -> nat, ws: seq<string>, limit: nat,
                                         cur: seq<string>, curTok: nat)
    requires PackState(cost, limit, cur, curTok)
    ensures WellPacked(cost, PackFrom(cost, ws, limit, cur, curTok), limit)
    ensures Greedy(cost, PackFrom(cost, ws, limit, cur, curTok), limit)
    decreases |ws|
  {
    var r := PackFrom(cost, ws, limit, cur, curTok);
    if ws != [] {
      var w := ws[0];
      var t := cost(w);
      if curTok + t > limit {
        var rest := PackFrom(cost, ws[1..], limit, [w], t);
        assert Sum(cost, [w]) == t by {
          assert [w][1..] == [];
        }
        PackFromShape(cost, ws[1..], limit, [w], t);
        if cur != [] {
          PackFromFirst(cost, ws[1..], limit, [w], t);
          assert r == [cur] + rest;
          PrependGroup(cost, cur, rest, limit);
        } else {
          assert r == rest;
        }
      } else {
        SumAppend(cost, cur, w);
        PackFromShape(cost, ws[1..], limit, cur + [w], curTok + t);
      }
    }
  }

  /** A closed group in front of well packed greedy groups keeps them so
      when the next group's first word would not have fit. */
  lemma PrependGroup(cost: string -> nat, cur: seq<string>, rest: seq<seq<string>>, limit: nat)
    requires cur != [] && (Sum(cost, cur) <= limit || |cur| == 1)
    requires WellPacked(cost, rest, limit) && Greedy(cost, rest, limit)
    requires rest != [] && Sum(cost, cur) + cost(rest[0][0]) > limit
    ensures WellPacked(cost, [cur] + rest, limit) && Greedy(cost, [cur] + rest, limit)
  {
    var r := [cur] + rest;
    assert forall i :: 1 <= i < |r| ==> r[i] == rest[i - 1];
  }

  /** The word cost `split_prompt` uses. */
  function WordCost(be: Backend): string -> nat {
    w => be.tokens(w, SplitterModel)
  }

  function JoinEach(groups: seq<seq<string>>): (parts: seq<string>)
    ensures |parts| == |groups|
    ensures forall i :: 0 <= i < |groups| ==> parts[i] == Join(" ", groups[i])
  {
    seq(|groups|, i requires 0 <= i < |groups| => Join(" ", groups[i]))
  }

  /** `split_prompt(prompt, token_limit)`. */
  function SplitPrompt(be: Backend, prompt: string, limit: nat): seq<string> {
    JoinEach(Pack(WordCost(be), Words(prompt), limit))
  }

  lemma {:induction false} ConcatMapWords(parts: seq<string>, groups: seq<seq<string>>)
    requires |parts| == |groups|
    requires forall i :: 0 <= i < |groups| ==> Words(parts[i]) == groups[i]
    ensures Concat(seq(|parts|, i requires 0 <= i < |parts| => Words(parts[i]))) == Concat(groups)
    decreases |parts|
  {
    var m := seq(|parts|, i requires 0 <= i < |parts| => Words(parts[i]));
    assert m == groups;
  }

  /** `split_prompt` loses, duplicates and reorders no word: the words of
      the parts, in order, are the words of the prompt. No part is empty, a
      blank prompt gives no part, every part fits the budget unless it is a
      single oversized word, and each part was closed only because the next
      word would not fit. */
  lemma SplitPromptSpec(be: Backend, prompt: string, limit: nat)
    ensures var parts := SplitPrompt(be, prompt, limit);
            Concat(seq(|parts|, i requires 0 <= i < |parts| => Words(parts[i]))) == Words(prompt)
    ensures forall i :: 0 <= i < |SplitPrompt(be, prompt, limit)| ==>
              SplitPrompt(be, prompt, limit)[i] != ""
    ensures SplitPrompt(be, prompt, limit) == [] <==> AllSpace(prompt)
    ensures var groups := Pack(WordCost(be), Words(prompt), limit);
            && WellPacked(WordCost(be), groups, limit)
            && Greedy(WordCost(be), groups, limit)
            && forall i :: 0 <= i < |groups| ==> Words(SplitPrompt(be, prompt, limit)[i]) == groups[i]
  {
    var cost := WordCost(be);
    var ws := Words(prompt);
    var groups := Pack(cost, ws, limit);
    var parts := SplitPrompt(be, prompt, limit);
    PackFromShape(cost, ws, limit, [], 0);
    PackFromConcat(cost, ws, limit, [], 0);
    assert [] + ws == ws;
    forall i | 0 <= i < |groups| ensures Words(parts[i]) == groups[i] {
      ConcatAllWords(groups, i);
      WordsOfJoin(groups[i]);
    }
    ConcatMapWords(parts, groups);
    if groups != [] {
      assert Concat(groups) == groups[0] + Concat(groups[1..]);
    }
  }

  lemma JoinEachAppend(groups: seq<seq<string>>, g: seq<string>)
    ensures JoinEach(groups + [g]) == JoinEach(groups) + [Join(" ", g)]
  {
  }

  /** The loop of `split_prompt` as written: it computes `SplitPrompt`. */
  method SplitPromptLoop(be: Backend, prompt: string, limit: nat) returns (parts: seq<string>)
    ensures parts == SplitPrompt(be, prompt, limit)
  {
    var cost := WordCost(be);
    var words := Words(prompt);
    parts := [];
    var currentPart: seq<string> := [];
    var currentTokens: nat := 0;
    ghost var done: seq<seq<string>> := [];
    var i := 0;
    while i < |words|
      invariant 0 <= i <= |words|
      invariant parts == JoinEach(done)
      invariant Pack(cost, words, limit) == done + PackFrom(cost, words[i..], limit, currentPart, currentTokens)
    {
      var word := words[i];
      var wordTokens := be.tokens(word, SplitterModel);
      assert words[i..][0] == word && words[i..][1..] == words[i + 1..];
      assert cost(word) == wordTokens;
      ghost var pending := PackFrom(cost, words[i..], limit, currentPart, currentTokens);
      if currentTokens + wordTokens > limit {
        ghost var rest := PackFrom(cost, words[i + 1..], limit, [word], wordTokens);
        if currentPart != [] {
          assert pending == [currentPart] + rest;
          assert done + pending == (done + [currentPart]) + rest;
          JoinEachAppend(done, currentPart);
          parts := parts + [Join(" ", currentPart)];
          done := done + [currentPart];
        } else {
          assert pending == rest;
        }
        currentPart := [word];
        currentTokens := wordTokens;
      } else {
        assert pending == PackFrom(cost, words[i + 1..], limit, currentPart + [word], currentTokens + wordTokens);
        currentPart := currentPart + [word];
        currentTokens := currentTokens + wordTokens;
      }
      i := i + 1;
    }
    assert words[i..] == [];
    if currentPart != [] {
      JoinEachAppend(done, currentPart);
      parts := parts + [Join(" ", currentPart)];
      done := done + [currentPart];
    } else {
      assert done + [] == done;
    }
  }

  // ---------------------------------------------------------------------
  // generate_text and split_and_process

  /** Outcome of `generate_text`: the returned text with the provider calls
      made, in order; the `ValueError` for an unsupported model; or the end
      of the fuel. */
  datatype Generation = Generated(text: string, calls: seq<Call>) | Unsupported | OutOfFuel

  /** The text of one provider call once the `APIException` handler has run. */
  function Reply(be: Backend, c: Call): string {
    match be.complete(c)
    case Ok(t) => t
    case Err(_) => GenerationFailed
  }

  /** A call that `generate_text(model, ..., max_tokens=bound)` may issue:
      routed to the model's provider, for that model, with a prompt within
      the budget, and never asking for more tokens than `bound`. */
  predicate Admissible(be: Backend, p: Provider, model: string, bound: int, c: Call) {
    && c.provider == p
    && c.model == model
    && be.tokens(c.prompt, model) <= TokenLimit
    && (bound >= 0 ==> 0 <= c.maxTokens <= bound)
  }

  predicate AllAdmissible(be: Backend, p: Provider, model: string, bound: int, calls: seq<Call>) {
    forall i :: 0 <= i < |calls| ==> Admissible(be, p, model, bound, calls[i])
  }

  lemma AdmissibleWeaken(be: Backend, p: Provider, model: string, share: int, bound: int,
                         calls: seq<Call>)
    requires AllAdmissible(be, p, model, share, calls)
    requires bound >= 0 ==> 0 <= share <= bound
    ensures AllAdmissible(be, p, model, bound, calls)
  {
  }

  lemma AdmissibleAppend(be: Backend, p: Provider, model: string, bound: int,
                          a: seq<Call>, b: seq<Call>)
    requires AllAdmissible(be, p, model, bound, a) && AllAdmissible(be, p, model, bound, b)
    ensures AllAdmissible(be, p, model, bound, a + b)
  {
    assert forall i :: 0 <= i < |a + b| ==> (a + b)[i] == if i < |a| then a[i] else b[i - |a|];
  }

  /** The per-part share `max_tokens // len(parts)` never exceeds a
      non-negative `max_tokens`. */
  lemma ShareWithin(maxTokens: int, n: nat)
    ensures var share := if n == 0 then 0 else maxTokens / n;
            maxTokens >= 0 ==> 0 <= share <= maxTokens
  {
    if n > 0 && maxTokens >= 0 {
      var q, r := maxTokens / n, maxTokens % n;
      assert maxTokens == n * q + r && 0 <= r < n;
      MulNonNegative(n, -q - 1);
      MulNonNegative(n - 1, q);
    }
  }

  lemma MulNonNegative(a: int, b: int)
    ensures a >= 0 && b >= 0 ==> a * b >= 0
  {
  }

  /** `generate_text(session, model, prompt, temperature, max_tokens)`. */
  function GenerateText(be: Backend, model: string, prompt: string, temperature: real,
                        maxTokens: int, fuel: nat): (g: Generation)
    decreases fuel, 0, 0
    ensures g.Unsupported? <==> Route(model).None?
    ensures g.Generated? ==> AllAdmissible(be, Route(model).value, model, maxTokens, g.calls)
  {
    match Route(model)
    case None => Unsupported
    case Some(p) =>
      if be.tokens(prompt, model) > TokenLimit then
        if fuel == 0 then OutOfFuel
        else SplitAndProcess(be, model, prompt, temperature, maxTokens, TokenLimit, fuel - 1)
      else
        var c := Call(p, model, prompt, temperature, maxTokens);
        Generated(Reply(be, c), [c])
  }

  /** `split_and_process`: each part with `max_tokens // len(parts)` (for a
      positive divisor Dafny's `/` is Python's floor division), the answers
      joined with a space, and one more `generate_text` on the summary
      prompt, with the original `max_tokens`, when the joined text is over
      the limit. */
  function SplitAndProcess(be: Backend, model: string, prompt: string, temperature: real,
                           maxTokens: int, limit: nat, fuel: nat): (g: Generation)
    requires Route(model).Some?
    decreases fuel, 2, 0
    ensures !g.Unsupported?
    ensures g.Generated? ==> AllAdmissible(be, Route(model).value, model, maxTokens, g.calls)
  {
    var parts := SplitPrompt(be, prompt, limit);
    var share := if |parts| == 0 then 0 else maxTokens / |parts|;
    ShareWithin(maxTokens, |parts|);
    match GenerateParts(be, model, parts, temperature, share, fuel)
    case None => OutOfFuel
    case Some((answers, calls)) =>
      AdmissibleWeaken(be, Route(model).value, model, share, maxTokens, calls);
      var combined := Join(" ", answers);
      if be.tokens(combined, model) > limit then
        match GenerateText(be, model, SummaryPrefix + combined, temperature, maxTokens, fuel)
        case Generated(text, more) =>
          AdmissibleAppend(be, Route(model).value, model, maxTokens, calls, more);
          Generated(text, calls + more)
        case _ => OutOfFuel
      else
        Generated(combined, calls)
  }

  /** The `for` loop of `split_and_process`: one `generate_text` per part, in
      order; `None` when the fuel runs out. */
  function GenerateParts(be: Backend, model: string, parts: seq<string>, temperature: real,
                         share: int, fuel: nat): (r: Option<(seq<string>, seq<Call>)>)
    requires Route(model).Some?
    decreases fuel, 1, |parts|
    ensures r.Some? ==> |r.value.0| == |parts|
                        && AllAdmissible(be, Route(model).value, model, share, r.value.1)
  {
    if parts == [] then Some(([], []))
    else
      match GenerateText(be, model, parts[0], temperature, share, fuel)
      case Generated(text, calls) =>
        (match GenerateParts(be, model, parts[1..], temperature, share, fuel)
         case Some((texts, more)) =>
           AdmissibleAppend(be, Route(model).value, model, share, calls, more);
           Some(([text] + texts, calls + more))
         case None => None)
      case _ => None
  }

  /** A prompt within the budget costs exactly one provider call, whose
      text is returned, or the fixed error string when the provider raised
      `APIException`. */
  lemma DirectCall(be: Backend, model: string, prompt: string, temperature: real,
                   maxTokens: int, fuel: nat)
    requires Route(model).Some? && be.tokens(prompt, model) <= TokenLimit
    ensures var g := GenerateText(be, model, prompt, temperature, maxTokens, fuel);
            var c := Call(Route(model).value, model, prompt, temperature, maxTokens);
            && g.Generated?
            && g.calls == [c]
            && (be.complete(c).Ok? ==> g.text == be.complete(c).value)
            && (be.complete(c).Err? ==> g.text == GenerationFailed)
  {
  }

  /** The calls and answers of the parts when each part is within the
      budget: one call per part, in order, each with `share` tokens. */
  function PartCalls(p: Provider, model: string, parts: seq<string>, temperature: real,
                     share: int): (cs: seq<Call>)
    ensures |cs| == |parts|
    ensures forall i :: 0 <= i < |parts| ==> cs[i] == Call(p, model, parts[i], temperature, share)
  {
    seq(|parts|, i requires 0 <= i < |parts| => Call(p, model, parts[i], temperature, share))
  }

  function Replies(be: Backend, cs: seq<Call>): (rs: seq<string>)
    ensures |rs| == |cs|
    ensures forall i :: 0 <= i < |cs| ==> rs[i] == Reply(be, cs[i])
  {
    seq(|cs|, i requires 0 <= i < |cs| => Reply(be, cs[i]))
  }

  lemma {:induction false} PartsWithinBudget(be: Backend, model: string, parts: seq<string>,
                                             temperature: real, share: int, fuel: nat)
    requires Route(model).Some?
    requires forall i :: 0 <= i < |parts| ==> be.tokens(parts[i], model) <= TokenLimit
    ensures var cs := PartCalls(Route(model).value, model, parts, temperature, share);
            GenerateParts(be, model, parts, temperature, share, fuel) == Some((Replies(be, cs), cs))
    decreases |parts|
  {
    if parts != [] {
      var p := Route(model).value;
      PartsWithinBudget(be, model, parts[1..], temperature, share, fuel);
      var cs := PartCalls(p, model, parts, temperature, share);
      var tail := PartCalls(p, model, parts[1..], temperature, share);
      assert cs == [cs[0]] + tail;
      assert Replies(be, cs) == [Reply(be, cs[0])] + Replies(be, tail);
    }
  }

  /** What a split with fitting parts yields: one call per part, in order,
      each asking for `max_tokens // len(parts)`; the answers joined by a
      space when they fit, and otherwise exactly one more call (when the
      summary prompt itself fits) carrying the summary prompt with the
      original `max_tokens`. */
  predicate SplitOutcome(be: Backend, model: string, prompt: string, temperature: real,
                         maxTokens: int, g: Generation)
    requires Route(model).Some?
  {
    var p := Route(model).value;
    var parts := SplitPrompt(be, prompt, TokenLimit);
    var share := if |parts| == 0 then 0 else maxTokens / |parts|;
    var cs := PartCalls(p, model, parts, temperature, share);
    var combined := Join(" ", Replies(be, cs));
    var summary := Call(p, model, SummaryPrefix + combined, temperature, maxTokens);
    && (g.Generated? ==> |parts| <= |g.calls| && g.calls[..|parts|] == cs)
    && (be.tokens(combined, model) <= TokenLimit ==> g == Generated(combined, cs))
    && (be.tokens(combined, model) > TokenLimit
        && be.tokens(SummaryPrefix + combined, model) <= TokenLimit ==>
          g == Generated(Reply(be, summary), cs + [summary]))
  }

  /** An over-budget prompt is never sent whole: `generate_text` hands it
      to `split_and_process` with the 16000-token limit. */
  lemma OverBudgetSplits(be: Backend, model: string, prompt: string, temperature: real,
                         maxTokens: int, fuel: nat)
    requires Route(model).Some? && be.tokens(prompt, model) > TokenLimit && fuel > 0
    ensures GenerateText(be, model, prompt, temperature, maxTokens, fuel)
         == SplitAndProcess(be, model, prompt, temperature, maxTokens, TokenLimit, fuel - 1)
  {
  }

  lemma SplitWithFittingParts(be: Backend, model: string, prompt: string, temperature: real,
                              maxTokens: int, fuel: nat)
    requires Route(model).Some?
    requires var parts := SplitPrompt(be, prompt, TokenLimit);
             forall i :: 0 <= i < |parts| ==> be.tokens(parts[i], model) <= TokenLimit
    ensures SplitOutcome(be, model, prompt, temperature, maxTokens,
                         SplitAndProcess(be, model, prompt, temperature, maxTokens, TokenLimit, fuel))
  {
    var p := Route(model).value;
    var parts := SplitPrompt(be, prompt, TokenLimit);
    var share := if |parts| == 0 then 0 else maxTokens / |parts|;
    var cs := PartCalls(p, model, parts, temperature, share);
    var combined := Join(" ", Replies(be, cs));
    PartsWithinBudget(be, model, parts, temperature, share, fuel);
    var g := SplitAndProcess(be, model, prompt, temperature, maxTokens, TokenLimit, fuel);
    if be.tokens(combined, model) > TokenLimit {
      var h := GenerateText(be, model, SummaryPrefix + combined, temperature, maxTokens, fuel);
      if g.Generated? {
        assert h.Generated? && g.calls == cs + h.calls;
        assert g.calls[..|parts|] == cs;
      }
      if be.tokens(SummaryPrefix + combined, model) <= TokenLimit {
        DirectCall(be, model, SummaryPrefix + combined, temperature, maxTokens, fuel);
      }
    }
  }

  /** A prompt that is a single word over the budget is its own only part,
      so `generate_text` hands the same prompt back to `split_and_process`
      at every level: the recursion never reaches a provider call, and the
      model runs out of fuel whatever the fuel. */
  lemma {:induction false} OversizedWordNeverFinishes(be: Backend, model: string, word: string,
                                                      temperature: real, maxTokens: int, fuel: nat)
    requires Route(model).Some? && IsWord(word) && be.tokens(word, model) > TokenLimit
    ensures GenerateText(be, model, word, temperature, maxTokens, fuel) == OutOfFuel
    decreases fuel
  {
    if fuel > 0 {
      SingleWordSplit(be, word, TokenLimit);
      OversizedWordNeverFinishes(be, model, word, temperature, maxTokens, fuel - 1);
      assert maxTokens / 1 == maxTokens;
      assert GenerateParts(be, model, [word], temperature, maxTokens, fuel - 1).None?;
    }
  }

  /** `split_prompt` leaves a single word whole, whatever its cost. */
  lemma SingleWordSplit(be: Backend, word: string, limit: nat)
    requires IsWord(word)
    ensures SplitPrompt(be, word, limit) == [word]
  {
    WordsOfJoin([word]);
    assert Words(word) == [word];
    var cost := WordCost(be);
    assert [word][1..] == [];
    assert PackFrom(cost, [], limit, [word], cost(word)) == [[word]];
    assert [] + [word] == [word];
    assert PackFrom(cost, [], limit, [] + [word], 0 + cost(word)) == [[word]];
    assert Pack(cost, [word], limit) == [[word]];
  }
}

=== FILE: config.dfy ===
/** `create_modular_flow` (src/utils/config.py): a flow built from its
    JSON-shaped configuration, one step per entry and one block per entry of
    its `blocks` list, without any validation of the references. A missing
    required key is the `KeyError` the source raises. */
module Config {
  import opened Wrappers
  import opened PromptBlocks
  import opened Steps
  import opened FlowManager

  /** The `external_data` entry: its `type` and `source` keys. */
  datatype ExternalConfig = ExternalConfig(kind: Option<string>, source: Option<string>)

  /** One entry of a step's `blocks` list; `None` is an absent key. */
  datatype BlockConfig = BlockConfig(
    prompt: Option<string>,
    model: Option<string>,
    maxTokens: Option<int>,
    temperature: Option<real>,
    externalData: Option<ExternalConfig>,
    semanticSearch: Option<SearchSettings>,
    saveOutput: Option<SaveSettings>,
    inputs: Option<seq<Ref>>)

  datatype StepConfig = StepConfig(blocks: Option<seq<BlockConfig>>)

  /** The `KeyError` of a missing required key. */
  datatype ConfigError = MissingKey(key: string)

  /** The type names a configuration may give its external data. */
  function KindOf(name: string): (k: Option<ExternalKind>)
    ensures k.Some? <==> name in ["web", "api", "txt", "csv"]
  {
    if name == "web" then Some(WebData)
    else if name == "api" then Some(APIData)
    else if name == "txt" then Some(TXTData)
    else if name == "csv" then Some(CSVData)
    else None
  }

  function KindTag(k: ExternalKind): string {
    match k
    case WebData => "web"
    case APIData => "api"
    case TXTData => "txt"
    case CSVData => "csv"
  }

  lemma KindRoundTrip(k: ExternalKind)
    ensures KindOf(KindTag(k)) == Some(k)
  {
  }

  /** The block's external data: none without the key; `type` then `source`
      must be present; an unknown type silently gives none. */
  function BuildExternal(e: Option<ExternalConfig>): (r: Result<Option<ExternalData>, ConfigError>)
    ensures e.None? ==> r == Ok(None)
    ensures e.Some? && e.value.kind.None? ==> r == Err(MissingKey("type"))
    ensures e.Some? && e.value.kind.Some? && e.value.source.None? ==> r == Err(MissingKey("source"))
    ensures r.Ok? && r.value.Some? ==>
              && e.Some? && e.value.kind.Some? && e.value.source.Some?
              && KindOf(e.value.kind.value) == Some(r.value.value.kind)
              && r.value.value.source == e.value.source.value
    ensures r.Ok? && r.value.None? && e.Some? ==> KindOf(e.value.kind.value).None?
  {
    match e
    case None => Ok(None)
    case Some(ExternalConfig(kind, source)) =>
      if kind.None? then Err(MissingKey("type"))
      else if source.None? then Err(MissingKey("source"))
      else
        match KindOf(kind.value)
        case None => Ok(None)
        case Some(k) => Ok(Some(ExternalData(k, source.value)))
  }

  /** `block.add_input` for each reference, in order. */
  function AddInputs(b: PromptBlock, refs: seq<Ref>): (r: PromptBlock)
    ensures r == b.(inputBlocks := b.inputBlocks + refs)
    decreases |refs|
  {
    if refs == [] then
      assert b.inputBlocks + refs == b.inputBlocks;
      b
    else
      var r := AddInputs(AddInput(b, refs[0].0, refs[0].1), refs[1..]);
      assert b.inputBlocks + [refs[0]] + refs[1..] == b.inputBlocks + refs;
      r
  }

  /** One block: the external data is read before `prompt`, as in the
      source; the other keys fall back to the constructor's defaults. */
  function BuildBlock(c: BlockConfig): (r: Result<PromptBlock, ConfigError>)
    ensures r.Err? <==> BuildExternal(c.externalData).Err? || c.prompt.None?
    ensures BuildExternal(c.externalData).Err? ==> r == Err(BuildExternal(c.externalData).error)
    ensures r.Ok? ==>
              && r.value.prompt == c.prompt.value
              && r.value.model == c.model.GetOr("gpt-3.5-turbo")
              && r.value.maxTokens == c.maxTokens.GetOr(2000)
              && r.value.temperature == c.temperature.GetOr(0.7)
              && r.value.externalData == BuildExternal(c.externalData).value
              && r.value.semanticSearch == c.semanticSearch
              && r.value.saveOutput == c.saveOutput
              && r.value.inputBlocks == c.inputs.GetOr([])
              && r.value.output.None?
  {
    match BuildExternal(c.externalData)
    case Err(e) => Err(e)
    case Ok(ext) =>
      match c.prompt
      case None => Err(MissingKey("prompt"))
      case Some(prompt) =>
        var b := NewBlock(prompt, c.model.GetOr(DefaultModel), c.maxTokens.GetOr(DefaultMaxTokens),
                          c.temperature.GetOr(DefaultTemperature), ext, c.semanticSearch, c.saveOutput);
        Ok(AddInputs(b, c.inputs.GetOr([])))
  }

  /** One step: `blocks` is required; its blocks are built in order and the
      first error ends the construction. */
  function BuildStep(c: StepConfig): (r: Result<Step, ConfigError>)
    ensures c.blocks.None? ==> r == Err(MissingKey("blocks"))
    ensures r.Ok? <==> c.blocks.Some? && forall j :: 0 <= j < |c.blocks.value| ==> BuildBlock(c.blocks.value[j]).Ok?
    ensures r.Ok? ==> |r.value.blocks| == |c.blocks.value|
                      && forall j :: 0 <= j < |r.value.blocks| ==>
                           BuildBlock(c.blocks.value[j]) == Ok(r.value.blocks[j])
    ensures r.Err? && c.blocks.Some? ==>
              exists j :: 0 <= j < |c.blocks.value| && BuildBlock(c.blocks.value[j]) == Err(r.error)
                          && forall i :: 0 <= i < j ==> BuildBlock(c.blocks.value[i]).Ok?
  {
    match c.blocks
    case None => Err(MissingKey("blocks"))
    case Some(bs) =>
      var rs := seq(|bs|, j requires 0 <= j < |bs| => BuildBlock(bs[j]));
      assert forall j :: 0 <= j < |bs| ==> rs[j] == BuildBlock(bs[j]);
      match AllOk(rs)
      case Err(e) => Err(e)
      case Ok(blocks) => Ok(Step(blocks))
  }

  /** `create_modular_flow(steps_config, api_keys, words_per_chunk,
      default_top_k)`. */
  function CreateModularFlow(cfg: seq<StepConfig>, wordsPerChunk: int := 100, defaultTopK: int := 3):
    (r: Result<Manager, ConfigError>)
    ensures r.Ok? <==> forall i :: 0 <= i < |cfg| ==> BuildStep(cfg[i]).Ok?
    ensures r.Ok? ==> r.value.wordsPerChunk == wordsPerChunk && r.value.defaultTopK == defaultTopK
    ensures r.Ok? ==> |r.value.steps| == |cfg|
                      && forall i :: 0 <= i < |cfg| ==> BuildStep(cfg[i]) == Ok(r.value.steps[i])
    ensures r.Err? ==>
              exists i :: 0 <= i < |cfg| && BuildStep(cfg[i]) == Err(r.error)
                          && forall h :: 0 <= h < i ==> BuildStep(cfg[h]).Ok?
  {
    var rs := seq(|cfg|, i requires 0 <= i < |cfg| => BuildStep(cfg[i]));
    assert forall i :: 0 <= i < |cfg| ==> rs[i] == BuildStep(cfg[i]);
    match AllOk(rs)
    case Err(e) => Err(e)
    case Ok(steps) => Ok(Manager(steps, wordsPerChunk, defaultTopK))
  }

  /** Every error names one of the four keys the source reads with `[]`. */
  lemma ErrorKeys(cfg: seq<StepConfig>, wordsPerChunk: int, defaultTopK: int)
    ensures var r := CreateModularFlow(cfg, wordsPerChunk, defaultTopK);
            r.Err? ==> r.error.key in ["blocks", "type", "source", "prompt"]
  {
    var r := CreateModularFlow(cfg, wordsPerChunk, defaultTopK);
    if r.Err? {
      var i :| 0 <= i < |cfg| && BuildStep(cfg[i]) == Err(r.error);
      if cfg[i].blocks.Some? {
        var j :| 0 <= j < |cfg[i].blocks.value| && BuildBlock(cfg[i].blocks.value[j]) == Err(r.error);
      }
    }
  }

  // ---------------------------------------------------------------------
  // A configuration describing a flow

  /** The configuration entry that spells out every key of a block. */
  function DescribeBlock(b: PromptBlock): BlockConfig {
    BlockConfig(
      Some(b.prompt), Some(b.model), Some(b.maxTokens), Some(b.temperature),
      match b.externalData
      case None => None
      case Some(ed) => Some(ExternalConfig(Some(KindTag(ed.kind)), Some(ed.source))),
      b.semanticSearch, b.saveOutput, Some(b.inputBlocks))
  }

  function Describe(steps: seq<Step>): seq<StepConfig> {
    seq(|steps|, i requires 0 <= i < |steps| =>
      StepConfig(Some(seq(|steps[i].blocks|, j requires 0 <= j < |steps[i].blocks| =>
        DescribeBlock(steps[i].blocks[j])))))
  }

  lemma DescribeBlockRoundTrip(b: PromptBlock)
    requires b.output.None?
    ensures BuildBlock(DescribeBlock(b)) == Ok(b)
  {
    match b.externalData
    case None =>
    case Some(ed) => KindRoundTrip(ed.kind);
  }

  /** Any flow whose blocks have not run yet is rebuilt exactly from its
      description: the builder keeps every setting and every reference as
      given, in order. */
  lemma ConfigRoundTrip(steps: seq<Step>, wordsPerChunk: int, defaultTopK: int)
    requires forall i, j :: 0 <= i < |steps| && 0 <= j < |steps[i].blocks| ==> steps[i].blocks[j].output.None?
    ensures CreateModularFlow(Describe(steps), wordsPerChunk, defaultTopK) == Ok(Manager(steps, wordsPerChunk, defaultTopK))
  {
    var cfg := Describe(steps);
    forall i | 0 <= i < |steps| ensures BuildStep(cfg[i]) == Ok(steps[i]) {
      var bs := cfg[i].blocks.value;
      forall j | 0 <= j < |bs| ensures BuildBlock(bs[j]) == Ok(steps[i].blocks[j]) {
        DescribeBlockRoundTrip(steps[i].blocks[j]);
      }
      var built := BuildStep(cfg[i]).value;
      assert built.blocks == steps[i].blocks;
    }
    var m := CreateModularFlow(cfg, wordsPerChunk, defaultTopK).value;
    assert m.steps == steps;
  }
}

=== FILE: flow_graph.dfy ===
/** `FlowManager.generate_dot_code` (src/flow/flow_manager.py): the flow as
    a Graphviz digraph, one node per block coloured by its step, one edge
    per declared input reference. */
module FlowGraph {
  import opened Text
  import opened PromptBlocks
  import opened Steps

  const Header: string :=
    "\n        digraph G {\n            node [style=\"filled\", fontname=\"Arial\", shape=\"box\", margin=\"0.2,0.1\"];\n            edge [fontname=\"Arial\"];\n        "

  /** The step palette, cycled through by step index. */
  const Colors: seq<string> := ["#FFB3BA", "#BAFFC9", "#BAE1FF", "#FFFFBA", "#FFD8B9"]

  function StepColor(i: nat): string {
    Colors[i % |Colors|]
  }

  /** The palette repeats every five steps and never gives two consecutive
      steps the same colour. */
  lemma StepColorCycle(i: nat)
    ensures StepColor(i + 5) == StepColor(i)
    ensures StepColor(i + 1) != StepColor(i)
  {
  }

  /** `f"Block{i+1}_{j+1}"`; the indices of an edge's source may be
      negative, as written in the configuration. */
  function NodeId(i: int, j: int): string {
    "Block" + (IntToString(i + 1) + "_" + IntToString(j + 1))
  }

  /** `type(block.external_data).__name__`. */
  function KindName(k: ExternalKind): string {
    match k
    case WebData => "WebData"
    case APIData => "APIData"
    case TXTData => "TXTData"
    case CSVData => "CSVData"
  }

  function Label(i: nat, j: nat, b: PromptBlock): string {
    var ext := if b.externalData.Some? then "\\nDonnées Externes: " + KindName(b.externalData.value.kind) else "";
    var search := if b.SearchEnabled() then "\\nRecherche Sémantique" else "";
    "Étape " + NatToString(i + 1) + ", Bloc " + NatToString(j + 1) + "\\nModèle: " + b.model
      + ext + search + "\\nPrompt: " + Prefix(b.prompt, 50) + "..."
  }

  function NodeLine(i: nat, j: nat, b: PromptBlock): string {
    "    " + NodeId(i, j) + " [label=\"" + Label(i, j, b) + "\", fillcolor=\"" + StepColor(i) + "\"];\n"
  }

  function EdgeLine(x: Ref, target: string): string {
    "    " + NodeId(x.0, x.1) + " -> " + target + ";\n"
  }

  /** One line of the graph body: the node of block `j` of step `i`, or
      the edge from reference `source` to that node. */
  datatype Line = Node(step: nat, block: nat, b: PromptBlock) | Edge(source: Ref, step: nat, block: nat)

  function Render(l: Line): string {
    match l
    case Node(i, j, b) => NodeLine(i, j, b)
    case Edge(x, i, j) => EdgeLine(x, NodeId(i, j))
  }

  /** A block's node line, then one edge line per reference, in order. */
  function BlockLines(i: nat, j: nat, b: PromptBlock): seq<Line> {
    [Node(i, j, b)] + seq(|b.inputBlocks|, e requires 0 <= e < |b.inputBlocks| => Edge(b.inputBlocks[e], i, j))
  }

  function StepLines(i: nat, blocks: seq<PromptBlock>): seq<Line> {
    Concat(seq(|blocks|, j requires 0 <= j < |blocks| => BlockLines(i, j, blocks[j])))
  }

  function DotLines(steps: seq<Step>): seq<Line> {
    Concat(seq(|steps|, i requires 0 <= i < |steps| => StepLines(i, steps[i].blocks)))
  }

  /** Every line rendered, in order. */
  function RenderAll(lines: seq<Line>): (r: seq<string>)
    ensures |r| == |lines|
  {
    if lines == [] then [] else [Render(lines[0])] + RenderAll(lines[1..])
  }

  /** Entry `k` of the rendering is line `k` rendered. */
  lemma {:induction false} RenderAllAt(lines: seq<Line>, k: nat)
    requires k < |lines|
    ensures RenderAll(lines)[k] == Render(lines[k])
    decreases k
  {
    if k > 0 {
      RenderAllAt(lines[1..], k - 1);
      assert lines[1..][k - 1] == lines[k];
    }
  }

  /** The graph body: the rendered lines, one after the other; where each
      line sits in it is `ConcatGroup`'s concern. */
  function Body(lines: seq<Line>): string {
    Concat(RenderAll(lines))
  }

  /** The code is the fixed header, the body of the flow's lines and a
      closing brace. */
  function GenerateDotCode(steps: seq<Step>): (dot: string)
    ensures StartsWith(dot, Header)
    ensures |dot| == |Header| + |Body(DotLines(steps))| + 1 && dot[|dot| - 1] == '}'
    ensures dot[|Header|..|dot| - 1] == Body(DotLines(steps))
  {
    var body := Body(DotLines(steps));
    Framed(Header, body, "}");
    Header + body + "}"
  }

  /** Where the parts of `head + body + tail` sit. */
  lemma Framed<T>(head: seq<T>, body: seq<T>, tail: seq<T>)
    ensures var s := head + body + tail;
            && |s| == |head| + |body| + |tail|
            && s[..|head|] == head && s[|head|..|head| + |body|] == body
  {
  }

  /** Group `k` sits in the concatenation right after the groups before it,
      the next group starts right after it, and the last group ends the
      concatenation. */
  lemma ConcatGroup<T>(groups: seq<seq<T>>, k: nat)
    requires k < |groups|
    ensures var body, at := Concat(groups), |Concat(groups[..k])|;
            && at + |groups[k]| <= |body| && body[at..at + |groups[k]|] == groups[k]
            && |Concat(groups[..k + 1])| == at + |groups[k]|
    ensures |Concat(groups[..|groups|])| == |Concat(groups)|
  {
    ConcatSlice(groups, k);
    ConcatNext(groups, k);
    assert groups[..|groups|] == groups;
  }

  /** The groups before `k + 1` are the groups before `k` and group `k`. */
  lemma ConcatNext<T>(groups: seq<seq<T>>, k: nat)
    requires k < |groups|
    ensures |Concat(groups[..k + 1])| == |Concat(groups[..k])| + |groups[k]|
  {
    assert groups[..k + 1] == groups[..k] + [groups[k]];
    ConcatAppend(groups[..k], [groups[k]]);
    assert Concat([groups[k]]) == groups[k] + Concat([groups[k]][1..]);
  }

  /** Group `k` sits in the concatenation right after the groups before
      it. */
  lemma ConcatSlice<T>(groups: seq<seq<T>>, k: nat)
    requires k < |groups|
    ensures var at := |Concat(groups[..k])|;
            at + |groups[k]| <= |Concat(groups)| && Concat(groups)[at..at + |groups[k]|] == groups[k]
  {
    assert groups == groups[..k] + groups[k..];
    ConcatAppend(groups[..k], groups[k..]);
    assert Concat(groups[k..]) == groups[k] + Concat(groups[k..][1..]);
  }

  /** The line belongs to the flow: a node of an existing block, or an
      edge for one of that block's references. */
  predicate InFlow(steps: seq<Step>, l: Line) {
    && l.step < |steps| && l.block < |steps[l.step].blocks|
    && match l
       case Node(i, j, b) => b == steps[i].blocks[j]
       case Edge(x, i, j) => x in steps[i].blocks[j].inputBlocks
  }

  lemma BlockLinesMembers(i: nat, j: nat, b: PromptBlock, l: Line)
    ensures l in BlockLines(i, j, b) <==>
              l.step == i && l.block == j && (l.Node? ==> l.b == b) && (l.Edge? ==> l.source in b.inputBlocks)
  {
    var edges := seq(|b.inputBlocks|, e requires 0 <= e < |b.inputBlocks| => Edge(b.inputBlocks[e], i, j));
    if l.Edge? && l.step == i && l.block == j && l.source in b.inputBlocks {
      var e :| 0 <= e < |b.inputBlocks| && b.inputBlocks[e] == l.source;
      assert edges[e] == l;
    }
  }

  lemma StepLinesMembers(i: nat, blocks: seq<PromptBlock>, l: Line)
    ensures l in StepLines(i, blocks) <==>
              && l.step == i && l.block < |blocks|
              && (l.Node? ==> l.b == blocks[l.block])
              && (l.Edge? ==> l.source in blocks[l.block].inputBlocks)
  {
    var perBlock := seq(|blocks|, j requires 0 <= j < |blocks| => BlockLines(i, j, blocks[j]));
    ConcatMembers(perBlock, l);
    forall j | 0 <= j < |blocks|
      ensures l in perBlock[j] <==>
                l.step == i && l.block == j && (l.Node? ==> l.b == blocks[j]) && (l.Edge? ==> l.source in blocks[j].inputBlocks)
    {
      BlockLinesMembers(i, j, blocks[j], l);
    }
  }

  /** The graph body has exactly one node line per block and one edge line
      per declared reference, and nothing else; an edge is drawn even for
      a reference to the same or a later step. */
  lemma DotLinesMembers(steps: seq<Step>, l: Line)
    ensures l in DotLines(steps) <==> InFlow(steps, l)
  {
    var perStep := seq(|steps|, i requires 0 <= i < |steps| => StepLines(i, steps[i].blocks));
    assert DotLines(steps) == Concat(perStep);
    ConcatMembers(perStep, l);
    forall i | 0 <= i < |steps|
      ensures l in perStep[i] <==> i == l.step && InFlow(steps, l)
    {
      StepLinesMembers(i, steps[i].blocks, l);
    }
    if InFlow(steps, l) {
      assert l in perStep[l.step];
    }
  }

  /** An element of the concatenation is an element of one of the groups. */
  lemma {:induction false} ConcatMembers<T>(groups: seq<seq<T>>, x: T)
    ensures x in Concat(groups) <==> exists k :: 0 <= k < |groups| && x in groups[k]
    decreases |groups|
  {
    if groups != [] {
      var rest := groups[1..];
      ConcatMembers(rest, x);
      assert Concat(groups) == groups[0] + Concat(rest);
      if x in Concat(rest) {
        var k :| 0 <= k < |rest| && x in rest[k];
        assert groups[k + 1] == rest[k];
      }
      if exists k :: 0 <= k < |groups| && x in groups[k] {
        var k :| 0 <= k < |groups| && x in groups[k];
        if k > 0 {
          assert rest[k - 1] == groups[k];
        }
      }
    }
  }

  // ---------------------------------------------------------------------
  // How many lines the graph has

  function Total(xs: seq<nat>): nat {
    if xs == [] then 0 else xs[0] + Total(xs[1..])
  }

  /** The lines a step contributes: one per block plus one per reference. */
  function StepLineCount(blocks: seq<PromptBlock>): nat {
    Total(seq(|blocks|, j requires 0 <= j < |blocks| => 1 + |blocks[j].inputBlocks|))
  }

  function FlowLineCount(steps: seq<Step>): nat {
    Total(seq(|steps|, i requires 0 <= i < |steps| => StepLineCount(steps[i].blocks)))
  }

  lemma {:induction false} ConcatLength<T>(groups: seq<seq<T>>, sizes: seq<nat>)
    requires |sizes| == |groups|
    requires forall k :: 0 <= k < |groups| ==> |groups[k]| == sizes[k]
    ensures |Concat(groups)| == Total(sizes)
    decreases |groups|
  {
    if groups != [] {
      assert forall k :: 0 <= k < |groups| - 1 ==> groups[1..][k] == groups[k + 1];
      ConcatLength(groups[1..], sizes[1..]);
    }
  }

  lemma StepLinesCount(i: nat, blocks: seq<PromptBlock>)
    ensures |StepLines(i, blocks)| == StepLineCount(blocks)
  {
    var perBlock := seq(|blocks|, j requires 0 <= j < |blocks| => BlockLines(i, j, blocks[j]));
    ConcatLength(perBlock, seq(|blocks|, j requires 0 <= j < |blocks| => 1 + |blocks[j].inputBlocks|));
  }

  /** The graph body has exactly one line per block plus one per declared
      reference, so a reference declared twice is drawn twice. */
  lemma DotLinesCount(steps: seq<Step>)
    ensures |DotLines(steps)| == FlowLineCount(steps)
  {
    var perStep := seq(|steps|, i requires 0 <= i < |steps| => StepLines(i, steps[i].blocks));
    forall i | 0 <= i < |steps| ensures |perStep[i]| == StepLineCount(steps[i].blocks) {
      StepLinesCount(i, steps[i].blocks);
    }
    ConcatLength(perStep, seq(|steps|, i requires 0 <= i < |steps| => StepLineCount(steps[i].blocks)));
  }

  // ---------------------------------------------------------------------
  // Node identifiers are distinct

  lemma {:induction false} NatToStringLength(n: nat)
    ensures n >= 10 ==> |NatToString(n)| >= 2
    ensures n < 10 ==> |NatToString(n)| == 1
  {
  }

  lemma {:induction false} DigitInjective(a: nat, b: nat)
    requires a < 10 && b < 10 && Digit(a) == Digit(b)
    ensures a == b
  {
  }

  /** Decimal rendering is injective. */
  lemma {:induction false} NatToStringInjective(a: nat, b: nat)
    requires NatToString(a) == NatToString(b)
    ensures a == b
    decreases a
  {
    var s := NatToString(a);
    NatToStringLength(a);
    NatToStringLength(b);
    if a >= 10 {
      assert b >= 10;
      assert s == NatToString(a / 10) + [Digit(a % 10)];
      assert s == NatToString(b / 10) + [Digit(b % 10)];
      assert NatToString(a / 10) == s[..|s| - 1] == NatToString(b / 10);
      DigitInjective(a % 10, b % 10);
      NatToStringInjective(a / 10, b / 10);
    } else {
      assert b < 10;
      DigitInjective(a, b);
    }
  }

  /** `str(i)` starts with `-` exactly for a negative `i`. */
  lemma LeadingSign(a: int)
    ensures |IntToString(a)| > 0
    ensures IntToString(a)[0] == '-' <==> a < 0
  {
  }

  lemma UnderscoreAt(p: string, q: string)
    ensures (p + "_" + q)[|p|] == '_'
  {
  }

  /** `str(i)` is injective on all integers. */
  lemma IntToStringInjective(a: int, b: int)
    requires IntToString(a) == IntToString(b)
    ensures a == b
  {
    var s := IntToString(a);
    if a < 0 && b < 0 {
      assert NatToString(-a) == s[1..] == NatToString(-b);
      NatToStringInjective(-a, -b);
    } else if a >= 0 && b >= 0 {
      NatToStringInjective(a, b);
    } else {
      LeadingSign(a);
      LeadingSign(b);
      assert false;
    }
  }

  /** A digit string followed by `_` splits at its first `_`. */
  lemma SplitAtUnderscore(p: string, q: string, p': string, q': string)
    requires forall k :: 0 <= k < |p| ==> p[k] != '_'
    requires forall k :: 0 <= k < |p'| ==> p'[k] != '_'
    requires p + "_" + q == p' + "_" + q'
    ensures p == p' && q == q'
  {
    var s := p + "_" + q;
    assert s == p' + "_" + q';
    if |p| < |p'| {
      UnderscoreAt(p, q);
      assert false;
    } else if |p'| < |p| {
      UnderscoreAt(p', q');
      assert false;
    }
    assert p == s[..|p|];
    assert p' == s[..|p'|];
    assert q == s[|p| + 1..];
    assert q' == s[|p'| + 1..];
  }

  lemma IntToStringNoUnderscore(a: int)
    ensures forall k :: 0 <= k < |IntToString(a)| ==> IntToString(a)[k] != '_'
  {
  }

  lemma DropPrefix(a: string, b: string)
    ensures (a + b)[|a|..] == b
  {
  }

  /** Different blocks get different node identifiers, so the graph has one
      node per block. */
  lemma NodeIdInjective(i: int, j: int, i': int, j': int)
    requires NodeId(i, j) == NodeId(i', j')
    ensures i == i' && j == j'
  {
    var p, q := IntToString(i + 1), IntToString(j + 1);
    var p', q' := IntToString(i' + 1), IntToString(j' + 1);
    DropPrefix("Block", p + "_" + q);
    DropPrefix("Block", p' + "_" + q');
    assert p + "_" + q == p' + "_" + q';
    IntToStringNoUnderscore(i + 1);
    IntToStringNoUnderscore(i' + 1);
    SplitAtUnderscore(p, q, p', q');
    IntToStringInjective(i + 1, i' + 1);
    IntToStringInjective(j + 1, j' + 1);
  }
}

=== FILE: flow_manager.dfy ===
/** `FlowManager` (src/flow/flow_manager.py): the stage-by-stage execution
    of a flow. For each block of a stage it collects the outputs of the
    blocks it references, loads its external data, optionally narrows both
    to the chunks most similar to a query, prepends the result to its
    prompt, and generates; the results are then assigned to the blocks in
    order and saved where requested.

    The model is sequential: `asyncio.gather` is an order-preserving map,
    and each block's provider calls are kept as a separate trace because
    the calls of sibling blocks interleave in the source. */
module FlowManager {
  import opened Wrappers
  import opened Text
  import opened Ranking
  import opened PromptBlocks
  import opened Steps
  import opened SemanticSearch
  import opened ApiClient

  type Flow = seq<Step>

  /** The manager's state: its steps and the two search settings. */
  datatype Manager = Manager(steps: Flow, wordsPerChunk: int, defaultTopK: int)

  /** `FlowManager(api_keys)` with its default arguments. */
  function NewManager(wordsPerChunk: int := 100, defaultTopK: int := 3): (m: Manager)
    ensures |m.steps| == 0
  {
    Manager([], wordsPerChunk, defaultTopK)
  }

  /** `add_step`. */
  function AddStep(m: Manager, s: Step): (r: Manager)
    ensures |r.steps| == |m.steps| + 1 && r.steps[..|m.steps|] == m.steps
    ensures r.steps[|m.steps|] == s
    ensures r.wordsPerChunk == m.wordsPerChunk && r.defaultTopK == m.defaultTopK
  {
    m.(steps := m.steps + [s])
  }

  /** The collaborators: provider and tokenizer, external-data fetcher,
      embedding similarity and `np.argsort`. */
  datatype Env = Env(backend: Backend, load: Loader, similarity: Similarity, argsort: Argsorter)

  /** The exceptions of `process_step` that this model covers: the
      `ValueError` of an unsupported model, the `ValueError` of `range` with
      a step of 0 when `words_per_chunk` is 0, and the model's own end of
      fuel. Failures of the embedding service and provider errors other
      than `APIException` also escape in the code; they are not modelled. */
  datatype FlowError = UnsupportedModel(model: string) | ZeroWordsPerChunk | FuelExhausted

  // ---------------------------------------------------------------------
  // collect_input_texts

  /** Python's `a[i]` on a list of length `n`: negative `i` counts from the
      end; `None` is the `IndexError`. */
  function PyIndex(i: int, n: nat): (r: Option<nat>)
    ensures r.Some? ==> r.value < n
    ensures r.Some? <==> -(n as int) <= i < n
    ensures 0 <= i < n ==> r == Some(i)
    ensures -(n as int) <= i < 0 ==> r == Some((n + i) as nat)
  {
    if 0 <= i < n then Some(i)
    else if -(n as int) <= i < 0 then Some(n + i)
    else None
  }

  /** The position `self.steps[s].blocks[b]` designates, if any. */
  function Resolve(flow: Flow, r: Ref): Option<(nat, nat)> {
    match PyIndex(r.0, |flow|)
    case None => None
    case Some(s) =>
      match PyIndex(r.1, |flow[s].blocks|)
      case None => None
      case Some(b) => Some((s, b))
  }

  /** A reference that designates a block whose output is set. */
  predicate Readable(flow: Flow, r: Ref) {
    match Resolve(flow, r)
    case None => false
    case Some((s, b)) => s < |flow| && b < |flow[s].blocks| && flow[s].blocks[b].output.Some?
  }

  function OutputAt(flow: Flow, r: Ref): string
    requires Readable(flow, r)
  {
    var (s, b) := Resolve(flow, r).value;
    flow[s].blocks[b].output.value
  }

  /** The references of `refs` that `collect_input_texts` keeps, in order:
      those whose step index is below the current one. */
  function EarlierRefs(refs: seq<Ref>, k: int): (kept: seq<Ref>)
    ensures |kept| <= |refs|
    ensures forall x :: x in kept <==> x in refs && x.0 < k
  {
    if refs == [] then []
    else (if refs[0].0 < k then [refs[0]] else []) + EarlierRefs(refs[1..], k)
  }

  lemma RefsRegroup(a: seq<Ref>, b: seq<Ref>, c: seq<Ref>)
    ensures a + (b + c) == (a + b) + c
  {
  }

  /** One more reference is kept at the end, or dropped, and nothing
      before it moves: the filter keeps order and multiplicity. */
  lemma {:induction false} EarlierRefsAppend(refs: seq<Ref>, x: Ref, k: int)
    ensures EarlierRefs(refs + [x], k) == EarlierRefs(refs, k) + (if x.0 < k then [x] else [])
    decreases |refs|
  {
    if refs == [] {
      assert [] + [x] == [x];
      assert [x][1..] == [];
    } else {
      var head := if refs[0].0 < k then [refs[0]] else [];
      var last := if x.0 < k then [x] else [];
      var tail := refs[1..];
      assert (refs + [x])[0] == refs[0];
      assert (refs + [x])[1..] == tail + [x];
      assert EarlierRefs(refs + [x], k) == head + EarlierRefs(tail + [x], k);
      EarlierRefsAppend(tail, x, k);
      RefsRegroup(head, EarlierRefs(tail, k), last);
    }
  }

  /** Every reference `collect_input_texts` keeps can be read. */
  predicate DepsReadable(flow: Flow, k: int, refs: seq<Ref>) {
    forall x :: x in refs && x.0 < k ==> Readable(flow, x)
  }

  function CollectFrom(flow: Flow, k: int, refs: seq<Ref>): (texts: seq<string>)
    requires DepsReadable(flow, k, refs)
    ensures |texts| == |EarlierRefs(refs, k)|
    ensures forall i :: 0 <= i < |texts| ==> texts[i] == OutputAt(flow, EarlierRefs(refs, k)[i])
  {
    if refs == [] then []
    else
      assert refs == [refs[0]] + refs[1..];
      var rest := CollectFrom(flow, k, refs[1..]);
      var kept := EarlierRefs(refs, k);
      if refs[0].0 < k then
        assert kept == [refs[0]] + EarlierRefs(refs[1..], k);
        [OutputAt(flow, refs[0])] + rest
      else
        assert kept == EarlierRefs(refs[1..], k);
        rest
  }

  /** `collect_input_texts(step_index, block)`: the outputs of the
      referenced blocks, in reference order, skipping every reference whose
      step index is not below `step_index`. */
  function CollectInputTexts(flow: Flow, k: int, b: PromptBlock): (texts: seq<string>)
    requires DepsReadable(flow, k, b.inputBlocks)
    ensures |texts| == |EarlierRefs(b.inputBlocks, k)|
    ensures forall i :: 0 <= i < |texts| ==>
              texts[i] == OutputAt(flow, EarlierRefs(b.inputBlocks, k)[i])
  {
    CollectFrom(flow, k, b.inputBlocks)
  }

  // ---------------------------------------------------------------------
  // Input resolution and prompt assembly (the per-block loop of process_step)

  /** The `inputs` entry of a block's search settings, `['all']` by default. */
  function SearchSources(s: SearchSettings): seq<string> {
    s.inputs.GetOr(["all"])
  }

  predicate SearchesPrevious(s: SearchSettings) {
    "all" in SearchSources(s) || "previous" in SearchSources(s)
  }

  predicate SearchesExternal(s: SearchSettings, ext: string) {
    ("all" in SearchSources(s) || "external" in SearchSources(s)) && ext != ""
  }

  function ChunkTexts(pairs: seq<(string, real)>): (texts: seq<string>)
    ensures |texts| == |pairs|
    ensures forall i :: 0 <= i < |pairs| ==> texts[i] == pairs[i].0
  {
    seq(|pairs|, i requires 0 <= i < |pairs| => pairs[i].0)
  }

  /** The chunk texts a search over `text` keeps for a block, when it
      searches, best first and without their scores. */
  function KeptChunks(env: Env, m: Manager, s: SearchSettings, text: string, searched: bool):
    (texts: seq<string>)
    requires searched ==> m.wordsPerChunk != 0
    ensures !searched ==> texts == []
    ensures searched ==>
              |texts| == TopCount(|SplitText(text, m.wordsPerChunk)|, s.topK.GetOr(m.defaultTopK))
    ensures searched ==> forall i :: 0 <= i < |texts| ==> texts[i] in SplitText(text, m.wordsPerChunk)
    ensures searched ==>
              var chunks := SplitText(text, m.wordsPerChunk);
              exists top :: RankedTexts(texts, chunks, Scores(env.similarity, s.query.GetOr(""), chunks), top)
  {
    if searched then
      var chunks := SplitText(text, m.wordsPerChunk);
      var scores := Scores(env.similarity, s.query.GetOr(""), chunks);
      var r := Search(env.similarity, env.argsort, m.wordsPerChunk,
                      s.query.GetOr(""), text, s.topK.GetOr(m.defaultTopK));
      var texts := ChunkTexts(r);
      var top :| RankedSelection(r, chunks, scores, top);
      assert RankedTexts(texts, chunks, scores, top);
      texts
    else []
  }

  /** `texts` are the chunks at the distinct indices `top`, best score
      first, and no chunk left out scores above a kept one. */
  predicate RankedTexts(texts: seq<string>, chunks: seq<string>, scores: seq<real>, top: seq<nat>) {
    && |scores| == |chunks|
    && |top| == |texts|
    && InRange(top, |chunks|)
    && Distinct(top)
    && (forall i :: 0 <= i < |texts| ==> texts[i] == chunks[top[i]])
    && (forall i, j :: 0 <= i < j < |texts| ==> scores[top[i]] >= scores[top[j]])
    && (forall i, j :: 0 <= i < |texts| && 0 <= j < |chunks| && j !in top ==> scores[j] <= scores[top[i]])
  }

  /** The number of chunks a search over `text` keeps for a block: none
      when it does not search. */
  function KeptCount(m: Manager, s: SearchSettings, text: string, searched: bool): nat
    requires searched ==> m.wordsPerChunk != 0
  {
    if searched then TopCount(|SplitText(text, m.wordsPerChunk)|, s.topK.GetOr(m.defaultTopK)) else 0
  }

  /** The inputs of a block with semantic search: the chunks kept from the
      newline-joined dependency outputs (when `inputs` names `previous` or
      `all`), followed by those kept from the external text (when it names
      `external` or `all` and the text is non-empty); the scores are
      dropped. The query defaults to `''` and `top_k` to the manager's. */
  function SearchedTexts(env: Env, m: Manager, s: SearchSettings, deps: seq<string>, ext: string):
    (texts: seq<string>)
    requires SearchesPrevious(s) || SearchesExternal(s, ext) ==> m.wordsPerChunk != 0
    ensures |texts| == KeptCount(m, s, Join("\n", deps), SearchesPrevious(s))
                       + KeptCount(m, s, ext, SearchesExternal(s, ext))
  {
    KeptChunks(env, m, s, Join("\n", deps), SearchesPrevious(s))
      + KeptChunks(env, m, s, ext, SearchesExternal(s, ext))
  }

  /** Every searched input is a chunk of the text it was kept from: first
      those of the dependency outputs, then those of the external text. */
  lemma SearchedTextsChunks(env: Env, m: Manager, s: SearchSettings, deps: seq<string>, ext: string)
    requires SearchesPrevious(s) || SearchesExternal(s, ext) ==> m.wordsPerChunk != 0
    ensures var texts := SearchedTexts(env, m, s, deps, ext);
            var np := KeptCount(m, s, Join("\n", deps), SearchesPrevious(s));
            && (SearchesPrevious(s) ==>
                  forall i :: 0 <= i < np ==> texts[i] in SplitText(Join("\n", deps), m.wordsPerChunk))
            && (SearchesExternal(s, ext) ==>
                  forall i :: np <= i < |texts| ==> texts[i] in SplitText(ext, m.wordsPerChunk))
  {
    var fromPrev := KeptChunks(env, m, s, Join("\n", deps), SearchesPrevious(s));
    var fromExt := KeptChunks(env, m, s, ext, SearchesExternal(s, ext));
    if SearchesPrevious(s) {
      AppendMembers(fromPrev, fromExt, SplitText(Join("\n", deps), m.wordsPerChunk));
    }
    if SearchesExternal(s, ext) {
      AppendMembers(fromPrev, fromExt, SplitText(ext, m.wordsPerChunk));
    }
  }

  /** Membership of the two halves of a concatenation. */
  lemma AppendMembers(a: seq<string>, b: seq<string>, chunks: seq<string>)
    ensures (forall i :: 0 <= i < |a| ==> a[i] in chunks) ==>
              forall i :: 0 <= i < |a| ==> (a + b)[i] in chunks
    ensures (forall i :: 0 <= i < |b| ==> b[i] in chunks) ==>
              forall i :: |a| <= i < |a + b| ==> (a + b)[i] in chunks
  {
  }

  /** The texts a block's prompt is prefixed with (`input_texts`). Without
      search they are the dependency outputs, then the external text when it
      is non-empty; a search fails exactly when it has something to split
      and `words_per_chunk` is 0. */
  function ResolveInputs(env: Env, m: Manager, k: int, b: PromptBlock): (r: Result<seq<string>, FlowError>)
    requires DepsReadable(m.steps, k, b.inputBlocks)
    ensures r.Err? <==>
              b.SearchEnabled() && m.wordsPerChunk == 0
              && (SearchesPrevious(b.semanticSearch.value)
                  || SearchesExternal(b.semanticSearch.value, LoadExternalData(env.load, b)))
    ensures r.Err? ==> r.error == ZeroWordsPerChunk
    ensures r.Ok? && !b.SearchEnabled() ==>
              var deps := CollectInputTexts(m.steps, k, b);
              var ext := LoadExternalData(env.load, b);
              && |r.value| == |deps| + (if ext == "" then 0 else 1)
              && r.value[..|deps|] == deps
              && (ext != "" ==> r.value[|deps|] == ext)
    ensures r.Ok? && b.SearchEnabled() ==>
              r.value == SearchedTexts(env, m, b.semanticSearch.value,
                                       CollectInputTexts(m.steps, k, b), LoadExternalData(env.load, b))
  {
    var deps := CollectInputTexts(m.steps, k, b);
    var ext := LoadExternalData(env.load, b);
    if b.SearchEnabled() then
      var s := b.semanticSearch.value;
      if (SearchesPrevious(s) || SearchesExternal(s, ext)) && m.wordsPerChunk == 0 then Err(ZeroWordsPerChunk)
      else Ok(SearchedTexts(env, m, s, deps, ext))
    else
      Ok(deps + (if ext != "" then [ext] else []))
  }

  /** `block.prompt` after the per-block loop: the inputs joined by newlines,
      a blank line, then the old prompt; unchanged without inputs. */
  function AssemblePrompt(inputs: seq<string>, prompt: string): (r: string)
    ensures inputs == [] ==> r == prompt
    ensures inputs != [] ==>
              var merged := Join("\n", inputs);
              && |r| == |merged| + 2 + |prompt|
              && r[..|merged|] == merged
              && r[|merged|..|merged| + 2] == "\n\n"
              && r[|merged| + 2..] == prompt
  {
    if inputs == [] then prompt else Join("\n", inputs) + "\n\n" + prompt
  }

  /** A block after the per-block loop: its prompt carries its inputs. */
  function PrepareBlock(env: Env, m: Manager, k: int, b: PromptBlock): (r: Result<PromptBlock, FlowError>)
    requires DepsReadable(m.steps, k, b.inputBlocks)
    ensures r.Ok? <==> ResolveInputs(env, m, k, b).Ok?
    ensures r.Ok? ==> r.value == b.(prompt := r.value.prompt)
    ensures r.Err? ==> r.error == ZeroWordsPerChunk && m.wordsPerChunk == 0
  {
    match ResolveInputs(env, m, k, b)
    case Err(e) => Err(e)
    case Ok(inputs) => Ok(b.(prompt := AssemblePrompt(inputs, b.prompt)))
  }

  /** A fetch that fails does not stop the block: without search, its
      error message is the last input, so the prompt reads the dependency
      outputs, then the message, then a blank line and the block's own
      prompt. */
  lemma FailedLoadReachesPrompt(env: Env, m: Manager, k: int, b: PromptBlock)
    requires DepsReadable(m.steps, k, b.inputBlocks)
    requires b.externalData.Some? && env.load(b.externalData.value).Err? && !b.SearchEnabled()
    ensures PrepareBlock(env, m, k, b).Ok?
    ensures var deps := CollectInputTexts(m.steps, k, b);
            var msg := LoadErrorPrefix + env.load(b.externalData.value).error;
            && ResolveInputs(env, m, k, b).value == deps + [msg]
            && PrepareBlock(env, m, k, b).value.prompt ==
                 (if deps == [] then "" else Join("\n", deps) + "\n") + msg + "\n\n" + b.prompt
  {
    var deps := CollectInputTexts(m.steps, k, b);
    var msg := LoadErrorPrefix + env.load(b.externalData.value).error;
    var ext := LoadExternalData(env.load, b);
    assert ext[..|LoadErrorPrefix|] == LoadErrorPrefix;
    assert ext == msg;
    var ins := ResolveInputs(env, m, k, b).value;
    assert ins == deps + [msg];
    if deps != [] {
      JoinAppend("\n", deps, [msg]);
    }
  }

  predicate StepDepsReadable(flow: Flow, k: nat)
    requires k < |flow|
  {
    forall j :: 0 <= j < |flow[k].blocks| ==> DepsReadable(flow, k, flow[k].blocks[j].inputBlocks)
  }

  /** The per-block loop over the blocks of step `k`; the first
      `ValueError` ends it. */
  function PrepareAll(env: Env, m: Manager, k: nat): (r: Result<seq<PromptBlock>, FlowError>)
    requires k < |m.steps| && StepDepsReadable(m.steps, k)
    ensures r.Ok? <==> forall j :: 0 <= j < |m.steps[k].blocks| ==> ResolveInputs(env, m, k, m.steps[k].blocks[j]).Ok?
    ensures r.Ok? ==> |r.value| == |m.steps[k].blocks|
    ensures r.Ok? ==> forall j :: 0 <= j < |r.value| ==> SameSettings(r.value[j], m.steps[k].blocks[j])
    ensures r.Err? ==> r.error == ZeroWordsPerChunk && m.wordsPerChunk == 0
  {
    AllOk(PrepareEach(env, m, k))
  }

  /** The per-block outcomes of the loop, one per block in order. */
  function PrepareEach(env: Env, m: Manager, k: nat): (rs: seq<Result<PromptBlock, FlowError>>)
    requires k < |m.steps| && StepDepsReadable(m.steps, k)
    ensures |rs| == |m.steps[k].blocks|
    ensures forall j :: 0 <= j < |rs| ==> rs[j] == PrepareBlock(env, m, k, m.steps[k].blocks[j])
  {
    var blocks := m.steps[k].blocks;
    seq(|blocks|, j requires 0 <= j < |blocks| => PrepareBlock(env, m, k, blocks[j]))
  }

  // ---------------------------------------------------------------------
  // Generation and assignment

  /** The model of the first block whose model has no provider: its task
      raises first, and `asyncio.gather` propagates that exception. */
  function FirstUnsupported(blocks: seq<PromptBlock>): (r: Option<string>)
    ensures r.Some? <==> exists j :: 0 <= j < |blocks| && Route(blocks[j].model).None?
    ensures r.Some? ==> exists j :: 0 <= j < |blocks| && blocks[j].model == r.value
                                    && Route(r.value).None?
                                    && forall i :: 0 <= i < j ==> Route(blocks[i].model).Some?
  {
    if blocks == [] then None
    else if Route(blocks[0].model).None? then Some(blocks[0].model)
    else
      var r := FirstUnsupported(blocks[1..]);
      assert forall j :: 1 <= j < |blocks| ==> blocks[j] == blocks[1..][j - 1];
      r
  }

  /** `generate_text` for one block, with its own model, prompt and
      parameters. */
  function GenerateBlock(be: Backend, b: PromptBlock, fuel: nat): Generation {
    GenerateText(be, b.model, b.prompt, b.temperature, b.maxTokens, fuel)
  }

  /** One task of `asyncio.gather`: the generated text and its calls. */
  function GenerateTask(be: Backend, b: PromptBlock, fuel: nat): (r: Result<(string, seq<Call>), FlowError>)
    ensures r.Ok? <==> GenerateBlock(be, b, fuel).Generated?
    ensures r.Ok? ==> GenerateBlock(be, b, fuel) == Generated(r.value.0, r.value.1)
  {
    match GenerateBlock(be, b, fuel)
    case Generated(text, calls) => Ok((text, calls))
    case Unsupported => Err(UnsupportedModel(b.model))
    case OutOfFuel => Err(FuelExhausted)
  }

  /** `asyncio.gather(*tasks)`: the results in task order. When some model
      has no provider, that task raises before its first `await`, so the
      first such block in order decides the exception. */
  function Gather(be: Backend, blocks: seq<PromptBlock>, fuel: nat):
    (r: Result<seq<(string, seq<Call>)>, FlowError>)
    ensures FirstUnsupported(blocks).Some? ==> r == Err(UnsupportedModel(FirstUnsupported(blocks).value))
    ensures r.Ok? <==> forall j :: 0 <= j < |blocks| ==> GenerateBlock(be, blocks[j], fuel).Generated?
    ensures r.Ok? ==> |r.value| == |blocks|
    ensures r.Ok? ==> forall j :: 0 <= j < |blocks| ==>
              GenerateBlock(be, blocks[j], fuel) == Generated(r.value[j].0, r.value[j].1)
    ensures r.Err? ==> exists j :: 0 <= j < |blocks| && GenerateTask(be, blocks[j], fuel) == Err(r.error)
  {
    match FirstUnsupported(blocks)
    case Some(model) =>
      var j :| 0 <= j < |blocks| && blocks[j].model == model && Route(model).None?;
      assert GenerateTask(be, blocks[j], fuel) == Err(UnsupportedModel(model));
      Err(UnsupportedModel(model))
    case None =>
      var tasks := seq(|blocks|, j requires 0 <= j < |blocks| => GenerateTask(be, blocks[j], fuel));
      assert forall j :: 0 <= j < |blocks| ==> (tasks[j].Ok? <==> GenerateBlock(be, blocks[j], fuel).Generated?);
      AllOk(tasks)
  }

  /** The outcome of one `process_step`: the new state, the provider calls
      of each block, and what `save_block_output` does for each block. */
  datatype StepRun = StepRun(manager: Manager, calls: seq<seq<Call>>, saves: seq<SaveAction>)

  /** The stage-0 guard: some block of step 0 declares an input. */
  predicate HasInputs(s: Step) {
    exists j :: 0 <= j < |s.blocks| && s.blocks[j].inputBlocks != []
  }

  /** Two blocks that differ at most in prompt and output. */
  predicate SameSettings(a: PromptBlock, b: PromptBlock) {
    a.(prompt := b.prompt, output := b.output) == b
  }

  /** The generation half of `process_step`: the prepared blocks are
      generated together, and each comes back holding its own generation's
      text, with that generation's calls beside it. */
  function GenerateAll(be: Backend, prepared: seq<PromptBlock>, fuel: nat):
    (r: Result<(seq<PromptBlock>, seq<seq<Call>>), FlowError>)
    ensures r.Ok? ==> var (done, calls) := r.value;
              && |done| == |prepared| && |calls| == |prepared|
              && forall j :: 0 <= j < |prepared| ==>
                   && done[j] == prepared[j].(output := done[j].output)
                   && done[j].output.Some?
                   && GenerateBlock(be, done[j], fuel) == Generated(done[j].output.value, calls[j])
    ensures r.Ok? <==> forall j :: 0 <= j < |prepared| ==> GenerateBlock(be, prepared[j], fuel).Generated?
    ensures r.Err? ==> exists j :: 0 <= j < |prepared| && GenerateTask(be, prepared[j], fuel) == Err(r.error)
    ensures r.Err? && r.error.UnsupportedModel? ==>
              Route(r.error.model).None?
              && exists j :: 0 <= j < |prepared| && prepared[j].model == r.error.model
    ensures r.Err? ==> !r.error.ZeroWordsPerChunk?
  {
    match Gather(be, prepared, fuel)
    case Err(e) =>
      assert e.UnsupportedModel? ==> FirstUnsupported(prepared) == Some(e.model);
      Err(e)
    case Ok(results) =>
      var done := seq(|prepared|, j requires 0 <= j < |prepared| =>
                        prepared[j].(output := Some(results[j].0)));
      var calls := seq(|results|, j requires 0 <= j < |results| => results[j].1);
      assert forall j :: 0 <= j < |prepared| ==> GenerateBlock(be, done[j], fuel) == GenerateBlock(be, prepared[j], fuel);
      Ok((done, calls))
  }

  /** Two managers whose steps hold the same blocks up to prompts and
      outputs. */
  predicate SameShape(a: Manager, b: Manager) {
    && a.wordsPerChunk == b.wordsPerChunk && a.defaultTopK == b.defaultTopK
    && |a.steps| == |b.steps|
    && (forall s :: 0 <= s < |a.steps| ==> |a.steps[s].blocks| == |b.steps[s].blocks|)
    && (forall s, j :: 0 <= s < |a.steps| && 0 <= j < |a.steps[s].blocks| ==>
          SameSettings(a.steps[s].blocks[j], b.steps[s].blocks[j]))
  }

  /** Step 0 is skipped by the guard. */
  predicate Guarded(flow: Flow) {
    |flow| > 0 && HasInputs(flow[0])
  }

  /** `m2` is `m` after step `k` has run: the blocks keep their settings,
      no other step changes, and every block of step `k` has an output;
      when the guard skips step 0 nothing changes at all. */
  predicate Advanced(m: Manager, m2: Manager, k: nat) {
    && SameShape(m2, m)
    && k < |m.steps|
    && (forall s :: 0 <= s < |m.steps| && s != k ==> m2.steps[s] == m.steps[s])
    && (k == 0 && Guarded(m.steps) ==> m2 == m)
    && (!(k == 0 && Guarded(m.steps)) ==>
          forall j :: 0 <= j < |m2.steps[k].blocks| ==> m2.steps[k].blocks[j].output.Some?)
  }

  /** The end of `process_step`: the generated blocks take the place of
      step `k`'s blocks, and each is then saved. */
  function Commit(m: Manager, k: nat, done: seq<PromptBlock>, calls: seq<seq<Call>>): (r: StepRun)
    requires k < |m.steps| && !(k == 0 && Guarded(m.steps))
    requires |done| == |m.steps[k].blocks| && |calls| == |done|
    requires forall j :: 0 <= j < |done| ==> SameSettings(done[j], m.steps[k].blocks[j]) && done[j].output.Some?
    ensures Advanced(m, r.manager, k)
    ensures r.manager.steps[k].blocks == done && r.calls == calls
    ensures |r.saves| == |done| && forall j :: 0 <= j < |done| ==> r.saves[j] == SaveBlockOutput(done[j])
  {
    var saves := seq(|done|, j requires 0 <= j < |done| => SaveBlockOutput(done[j]));
    var m2 := m.(steps := m.steps[k := Step(done)]);
    assert SameShape(m2, m);
    StepRun(m2, calls, saves)
  }

  /** `process_step` once its blocks are prepared: all generated together,
      then assigned in order and saved. */
  function ProcessPrepared(be: Backend, m: Manager, k: nat, prepared: seq<PromptBlock>, fuel: nat):
    (r: Result<StepRun, FlowError>)
    requires k < |m.steps| && !(k == 0 && Guarded(m.steps))
    requires |prepared| == |m.steps[k].blocks|
    requires forall j :: 0 <= j < |prepared| ==> SameSettings(prepared[j], m.steps[k].blocks[j])
    ensures r.Ok? <==> forall j :: 0 <= j < |prepared| ==> GenerateBlock(be, prepared[j], fuel).Generated?
    ensures r.Ok? ==> Advanced(m, r.value.manager, k)
    ensures r.Err? ==> !r.error.ZeroWordsPerChunk?
    ensures r.Err? && r.error.UnsupportedModel? ==>
              Route(r.error.model).None?
              && exists j :: 0 <= j < |m.steps[k].blocks| && m.steps[k].blocks[j].model == r.error.model
    ensures r.Err? && r.error.FuelExhausted? ==>
              exists j :: 0 <= j < |prepared| && GenerateBlock(be, prepared[j], fuel).OutOfFuel?
    ensures r.Ok? ==>
              var blocks := r.value.manager.steps[k].blocks;
              && |r.value.calls| == |blocks| && |r.value.saves| == |blocks|
              && forall j :: 0 <= j < |blocks| ==>
                   && blocks[j].prompt == prepared[j].prompt
                   && blocks[j].output.Some?
                   && GenerateBlock(be, blocks[j], fuel) == Generated(blocks[j].output.value, r.value.calls[j])
                   && r.value.saves[j] == SaveBlockOutput(blocks[j])
  {
    match GenerateAll(be, prepared, fuel)
    case Err(e) =>
      assert e.FuelExhausted? ==> exists j :: 0 <= j < |prepared| && GenerateBlock(be, prepared[j], fuel).OutOfFuel? by {
        var j :| 0 <= j < |prepared| && GenerateTask(be, prepared[j], fuel) == Err(e);
      }
      assert e.UnsupportedModel? ==> exists j :: 0 <= j < |m.steps[k].blocks| && m.steps[k].blocks[j].model == e.model by {
        if e.UnsupportedModel? {
          var j :| 0 <= j < |prepared| && prepared[j].model == e.model;
          assert SameSettings(prepared[j], m.steps[k].blocks[j]);
        }
      }
      Err(e)
    case Ok((done, calls)) =>
      assert forall j :: 0 <= j < |done| ==> SameSettings(done[j], m.steps[k].blocks[j]) by {
        forall j | 0 <= j < |done| ensures SameSettings(done[j], m.steps[k].blocks[j]) {
          assert SameSettings(prepared[j], m.steps[k].blocks[j]);
        }
      }
      Ok(Commit(m, k, done, calls))
  }

  /** `process_step(step_index)`: the guard on step 0 returns with nothing
      done; otherwise the blocks are prepared in order (a `ValueError` of
      the search ends the step) and then generated. */
  function ProcessStep(env: Env, m: Manager, k: nat, fuel: nat): (r: Result<StepRun, FlowError>)
    requires k < |m.steps|
    requires k == 0 || StepDepsReadable(m.steps, k)
    ensures k == 0 && Guarded(m.steps) ==> r == Ok(StepRun(m, [], []))
    ensures r.Ok? ==> Advanced(m, r.value.manager, k)
    ensures r.Err? && r.error.ZeroWordsPerChunk? ==> m.wordsPerChunk == 0
    ensures !(k == 0 && Guarded(m.steps)) ==>
              && StepDepsReadable(m.steps, k)
              && (PrepareAll(env, m, k).Err? ==> r == Err(PrepareAll(env, m, k).error))
              && (PrepareAll(env, m, k).Ok? ==> r == ProcessPrepared(env.backend, m, k, PrepareAll(env, m, k).value, fuel))
  {
    if k == 0 && Guarded(m.steps) then Ok(StepRun(m, [], []))
    else
      assert StepDepsReadable(m.steps, k);
      match PrepareAll(env, m, k)
      case Err(e) => Err(e)
      case Ok(prepared) => ProcessPrepared(env.backend, m, k, prepared, fuel)
  }

  /** The per-block loop leaves each block's prompt behind its resolved
      inputs. */
  lemma PreparedPrompts(env: Env, m: Manager, k: nat)
    requires k < |m.steps| && StepDepsReadable(m.steps, k)
    requires PrepareAll(env, m, k).Ok?
    ensures var prepared := PrepareAll(env, m, k).value;
            forall j :: 0 <= j < |prepared| ==>
              var before := m.steps[k].blocks[j];
              && ResolveInputs(env, m, k, before).Ok?
              && prepared[j].prompt == AssemblePrompt(ResolveInputs(env, m, k, before).value, before.prompt)
  {
    assert PrepareAll(env, m, k) == AllOk(PrepareEach(env, m, k));
  }

  // ---------------------------------------------------------------------
  // run_flow

  /** When step `k` runs, once steps `i..k-1` have run, reference `x` will
      designate a block that is filled: one of those steps not skipped by
      the guard, or a block whose output is already set. */
  predicate WillBeReadable(flow: Flow, i: nat, k: nat, x: Ref) {
    match Resolve(flow, x)
    case None => false
    case Some((s, b)) =>
      || (i <= s < k && !(s == 0 && Guarded(flow)))
      || (s < |flow| && b < |flow[s].blocks| && flow[s].blocks[b].output.Some?)
  }

  /** Running steps `i..` reads only blocks that are filled by then; this
      is what keeps `collect_input_texts` from raising. */
  predicate ReadyFrom(flow: Flow, i: nat) {
    forall k, j, x :: i <= k < |flow| && 0 < k && 0 <= j < |flow[k].blocks|
                      && x in flow[k].blocks[j].inputBlocks && x.0 < k ==>
                      WillBeReadable(flow, i, k, x)
  }

  lemma ReadyStep(flow: Flow, i: nat)
    requires 0 < i < |flow| && ReadyFrom(flow, i)
    ensures StepDepsReadable(flow, i)
  {
  }

  lemma SameShapeResolves(a: Manager, b: Manager, x: Ref)
    requires SameShape(a, b)
    ensures Resolve(a.steps, x) == Resolve(b.steps, x)
  {
  }

  lemma SameShapeGuard(a: Manager, b: Manager)
    requires SameShape(a, b)
    ensures Guarded(a.steps) <==> Guarded(b.steps)
  {
    if |a.steps| > 0 {
      assert forall j :: 0 <= j < |a.steps[0].blocks| ==>
        a.steps[0].blocks[j].inputBlocks == b.steps[0].blocks[j].inputBlocks;
    }
  }

  /** Running step `i` keeps the flow ready for step `i + 1`. */
  lemma ReadyNext(m: Manager, m2: Manager, i: nat)
    requires i < |m.steps| && ReadyFrom(m.steps, i) && Advanced(m, m2, i)
    ensures ReadyFrom(m2.steps, i + 1)
  {
    SameShapeGuard(m2, m);
    forall k, j, x | i + 1 <= k < |m2.steps| && 0 < k && 0 <= j < |m2.steps[k].blocks|
                     && x in m2.steps[k].blocks[j].inputBlocks && x.0 < k
      ensures WillBeReadable(m2.steps, i + 1, k, x)
    {
      assert m2.steps[k] == m.steps[k];
      SameShapeResolves(m2, m, x);
      assert WillBeReadable(m.steps, i, k, x);
    }
  }

  lemma SameShapeTrans(a: Manager, b: Manager, c: Manager)
    requires SameShape(a, b) && SameShape(b, c)
    ensures SameShape(a, c)
  {
    forall s, j | 0 <= s < |a.steps| && 0 <= j < |a.steps[s].blocks|
      ensures SameSettings(a.steps[s].blocks[j], c.steps[s].blocks[j])
    {
      assert SameSettings(a.steps[s].blocks[j], b.steps[s].blocks[j]);
      assert SameSettings(b.steps[s].blocks[j], c.steps[s].blocks[j]);
    }
  }

  /** The outcome of `run_flow`: the final state, and per step the calls
      and save actions of its blocks. */
  datatype FlowRun = FlowRun(manager: Manager, calls: seq<seq<seq<Call>>>, saves: seq<seq<SaveAction>>)

  /** The loop of `run_flow` from step `i` on. */
  function RunFrom(env: Env, m: Manager, i: nat, fuel: nat): (r: Result<FlowRun, FlowError>)
    requires i <= |m.steps| && ReadyFrom(m.steps, i)
    decreases |m.steps| - i
    ensures r.Ok? ==> SameShape(r.value.manager, m)
    ensures r.Ok? ==> |r.value.calls| == |m.steps| - i && |r.value.saves| == |m.steps| - i
    ensures r.Ok? ==> forall s :: 0 <= s < i ==> r.value.manager.steps[s] == m.steps[s]
    ensures r.Ok? ==> forall s, j :: (i <= s < |m.steps| && !(s == 0 && Guarded(m.steps))
                                      && 0 <= j < |m.steps[s].blocks|) ==>
                                     r.value.manager.steps[s].blocks[j].output.Some?
    ensures r.Ok? && i == 0 && Guarded(m.steps) ==> r.value.manager.steps[0] == m.steps[0]
  {
    if i == |m.steps| then Ok(FlowRun(m, [], []))
    else
      assert i == 0 || StepDepsReadable(m.steps, i) by {
        if i > 0 { ReadyStep(m.steps, i); }
      }
      match ProcessStep(env, m, i, fuel)
      case Err(e) => Err(e)
      case Ok(run) =>
        ReadyNext(m, run.manager, i);
        SameShapeGuard(run.manager, m);
        match RunFrom(env, run.manager, i + 1, fuel)
        case Err(e) => Err(e)
        case Ok(rest) =>
          SameShapeTrans(rest.manager, run.manager, m);
          Ok(FlowRun(rest.manager, [run.calls] + rest.calls, [run.saves] + rest.saves))
  }

  /** `run_flow`: every step in ascending order; afterwards every block
      has an output, except the blocks of step 0 when the guard skipped it,
      which are left as they were. */
  function RunFlow(env: Env, m: Manager, fuel: nat): (r: Result<FlowRun, FlowError>)
    requires ReadyFrom(m.steps, 0)
    ensures r.Ok? ==> SameShape(r.value.manager, m) && |r.value.calls| == |m.steps|
    ensures r.Ok? ==> forall s, j :: (0 <= s < |m.steps| && !(s == 0 && Guarded(m.steps))
                                      && 0 <= j < |m.steps[s].blocks|) ==>
                                     r.value.manager.steps[s].blocks[j].output.Some?
    ensures r.Ok? && Guarded(m.steps) ==> r.value.manager.steps[0] == m.steps[0]
  {
    RunFrom(env, m, 0, fuel)
  }

  /** References that only point backwards, by non-negative in-range
      indices, and no input on step 0: then nothing `run_flow` reads can be
      missing. */
  predicate WellFormed(flow: Flow) {
    && !Guarded(flow)
    && forall k, j, x :: 0 <= k < |flow| && 0 <= j < |flow[k].blocks| && x in flow[k].blocks[j].inputBlocks ==>
         0 <= x.0 < k && 0 <= x.1 < |flow[x.0].blocks|
  }

  lemma WellFormedIsReady(flow: Flow)
    requires WellFormed(flow)
    ensures ReadyFrom(flow, 0)
  {
  }

  /** A block without references, external data or search settings keeps
      its prompt exactly. */
  lemma PlainBlockUnchanged(env: Env, m: Manager, k: int, b: PromptBlock)
    requires b.inputBlocks == [] && b.externalData.None? && b.semanticSearch.None?
    ensures PrepareBlock(env, m, k, b) == Ok(b)
  {
    assert ResolveInputs(env, m, k, b) == Ok([]);
  }

  /** A search over external data only, on a block without external data,
      selects nothing: the prompt stays as it was, whatever the chunk size. */
  lemma ExternalSearchWithoutData(env: Env, m: Manager, k: int, b: PromptBlock)
    requires DepsReadable(m.steps, k, b.inputBlocks)
    requires b.externalData.None? && b.SearchEnabled()
    requires b.semanticSearch.value.inputs == Some(["external"])
    ensures PrepareBlock(env, m, k, b) == Ok(b)
  {
    assert !SearchesPrevious(b.semanticSearch.value);
    assert ResolveInputs(env, m, k, b) == Ok([]);
  }

  /** Two stages, the second reading the first: once step 0 has produced
      `out`, the block of step 1 is generated from `out`, a blank line and
      its own prompt. */
  lemma TwoStages(env: Env, out: string, fuel: nat)
    ensures var first := NewBlock("A").(output := Some(out));
            var second := AddInput(NewBlock("B"), 0, 0);
            var m := AddStep(AddStep(NewManager(), Step([first])), Step([second]));
            var r := ProcessStep(env, m, 1, fuel);
            r.Ok? ==> r.value.manager.steps[1].blocks[0].prompt == out + "\n\n" + "B"
  {
    var first := NewBlock("A").(output := Some(out));
    var second := AddInput(NewBlock("B"), 0, 0);
    var m := AddStep(AddStep(NewManager(), Step([first])), Step([second]));
    assert m.steps == [Step([first]), Step([second])];
    assert Readable(m.steps, (0, 0));
    assert OutputAt(m.steps, (0, 0)) == out;
    assert EarlierRefs(second.inputBlocks, 1) == [(0, 0)];
    assert StepDepsReadable(m.steps, 1);
    var r := ProcessStep(env, m, 1, fuel);
    if r.Ok? {
      PreparedPrompts(env, m, 1);
      assert CollectInputTexts(m.steps, 1, second) == [out];
      assert ResolveInputs(env, m, 1, second) == Ok([out]);
      assert Join("\n", [out]) == out;
    }
  }
}

=== FILE: flow_run.dfy ===
/** The order of `run_flow` (src/flow/flow_manager.py:87-91). Step `t`
    runs on the state the steps before it leave: those steps as they ended,
    the others as they were given. A run either gets through every step
    that way, or stops at the first step that fails, for a cause found in
    one of that step's blocks. */
module FlowRuns {
  import opened Wrappers
  import opened PromptBlocks
  import opened Steps
  import opened ApiClient
  import opened FlowManager

  /** The state step `s` runs on when the run ends in `fin`: the steps
      before `s` as `fin` holds them, the others as `m` gives them. */
  function Snapshot(m: Manager, fin: Manager, s: nat): (snap: Manager)
    requires s <= |m.steps| && |fin.steps| == |m.steps|
    ensures |snap.steps| == |m.steps|
    ensures snap.wordsPerChunk == m.wordsPerChunk && snap.defaultTopK == m.defaultTopK
  {
    m.(steps := fin.steps[..s] + m.steps[s..])
  }

  /** Block `b` is what step `s` makes of the given block `o` on the state
      `snap`: the prompt assembled from the inputs `o` resolves there, and
      the text its own generation returns, with that generation's calls and
      the save the text leads to. */
  predicate BlockMade(env: Env, snap: Manager, s: nat, o: PromptBlock, b: PromptBlock,
                      calls: seq<Call>, save: SaveAction, fuel: nat) {
    && DepsReadable(snap.steps, s, o.inputBlocks)
    && ResolveInputs(env, snap, s, o).Ok?
    && b == o.(prompt := AssemblePrompt(ResolveInputs(env, snap, s, o).value, o.prompt), output := b.output)
    && b.output.Some?
    && GenerateBlock(env.backend, b, fuel) == Generated(b.output.value, calls)
    && save == SaveBlockOutput(b)
  }

  /** Step `s`, given as `given`, became `done` on the state `snap`: a step
      the guard skips stays as it was and calls nothing; otherwise every
      block is made as `BlockMade` says. */
  predicate StepMade(env: Env, guarded: bool, snap: Manager, s: nat, given: Step, done: Step,
                     calls: seq<seq<Call>>, saves: seq<SaveAction>, fuel: nat) {
    if guarded then done == given && calls == [] && saves == []
    else
      && |done.blocks| == |given.blocks| && |calls| == |given.blocks| && |saves| == |given.blocks|
      && forall j :: 0 <= j < |given.blocks| ==>
           BlockMade(env, snap, s, given.blocks[j], done.blocks[j], calls[j], saves[j], fuel)
  }

  /** Steps `i..u-1` of `m` ran one after the other and left `fin`, with
      `calls[t - i]` and `saves[t - i]` the calls and saves of step `t`:
      each ran on the state the steps before it left, and no other step
      changed. */
  predicate RanSteps(env: Env, m: Manager, i: nat, u: nat, fuel: nat,
                     fin: Manager, calls: seq<seq<seq<Call>>>, saves: seq<seq<SaveAction>>) {
    && i <= u <= |m.steps| && |fin.steps| == |m.steps|
    && fin.wordsPerChunk == m.wordsPerChunk && fin.defaultTopK == m.defaultTopK
    && |calls| == u - i && |saves| == u - i
    && (forall t :: 0 <= t < |m.steps| && (t < i || u <= t) ==> fin.steps[t] == m.steps[t])
    && forall t :: i <= t < u ==>
         StepMade(env, t == 0 && Guarded(m.steps), Snapshot(m, fin, t), t, m.steps[t], fin.steps[t],
                  calls[t - i], saves[t - i], fuel)
  }

  // ---------------------------------------------------------------------
  // One step

  /** Every block of step `k` is prepared on `m`, and generation from each
      prepared prompt finishes within the fuel. */
  predicate StepGenerates(env: Env, m: Manager, k: nat, fuel: nat)
    requires k < |m.steps|
  {
    && StepDepsReadable(m.steps, k) && PrepareAll(env, m, k).Ok?
    && forall j :: 0 <= j < |PrepareAll(env, m, k).value| ==>
         GenerateBlock(env.backend, PrepareAll(env, m, k).value[j], fuel).Generated?
  }

  /** `process_step` succeeds exactly when the guard skips the step, or
      every block is prepared and generated. */
  lemma StepSucceeds(env: Env, m: Manager, k: nat, fuel: nat)
    requires k < |m.steps| && (k == 0 || StepDepsReadable(m.steps, k))
    ensures ProcessStep(env, m, k, fuel).Ok? <==> (k == 0 && Guarded(m.steps)) || StepGenerates(env, m, k, fuel)
  {
  }

  /** What `process_step(i)` did, stated on the state it started from. */
  lemma StepRuns(env: Env, m: Manager, i: nat, fuel: nat)
    requires i < |m.steps| && (i == 0 || StepDepsReadable(m.steps, i))
    requires ProcessStep(env, m, i, fuel).Ok?
    ensures var run := ProcessStep(env, m, i, fuel).value;
            StepMade(env, i == 0 && Guarded(m.steps), m, i, m.steps[i], run.manager.steps[i],
                     run.calls, run.saves, fuel)
  {
    if !(i == 0 && Guarded(m.steps)) {
      var run := ProcessStep(env, m, i, fuel).value;
      var prepared := PrepareAll(env, m, i).value;
      PreparedPrompts(env, m, i);
      assert run == ProcessPrepared(env.backend, m, i, prepared, fuel).value;
      var blocks := run.manager.steps[i].blocks;
      forall j | 0 <= j < |m.steps[i].blocks|
        ensures BlockMade(env, m, i, m.steps[i].blocks[j], blocks[j], run.calls[j], run.saves[j], fuel)
      {
        assert SameSettings(blocks[j], m.steps[i].blocks[j]);
      }
    }
  }

  /** Block `b`'s search has text to split and a chunk size of 0: it
      searches the dependency outputs, or non-empty external data. This is
      when its inputs fail to resolve. */
  predicate SearchFails(env: Env, m: Manager, b: PromptBlock) {
    && b.SearchEnabled() && m.wordsPerChunk == 0
    && (SearchesPrevious(b.semanticSearch.value)
        || SearchesExternal(b.semanticSearch.value, LoadExternalData(env.load, b)))
  }

  /** The cause of step `k` failing on `m` with `e`, in its block `j`: a
      search meeting a chunk size of 0 with text to split, a block whose
      model has no provider, or a block whose generation from its prepared
      prompt runs out of fuel. */
  predicate StepCause(env: Env, m: Manager, k: nat, fuel: nat, e: FlowError, j: nat)
    requires k < |m.steps|
  {
    && j < |m.steps[k].blocks|
    && (e.ZeroWordsPerChunk? ==> SearchFails(env, m, m.steps[k].blocks[j]))
    && (e.UnsupportedModel? ==> Route(e.model).None? && m.steps[k].blocks[j].model == e.model)
    && (e.FuelExhausted? ==>
          && StepDepsReadable(m.steps, k) && PrepareAll(env, m, k).Ok?
          && GenerateBlock(env.backend, PrepareAll(env, m, k).value[j], fuel).OutOfFuel?)
  }

  /** The per-block loop fails only at a block whose search has text to
      split with a chunk size of 0. */
  lemma PrepareFailure(env: Env, m: Manager, k: nat) returns (j: nat)
    requires k < |m.steps| && StepDepsReadable(m.steps, k)
    requires PrepareAll(env, m, k).Err?
    ensures PrepareAll(env, m, k).error == ZeroWordsPerChunk && m.wordsPerChunk == 0
    ensures j < |m.steps[k].blocks| && SearchFails(env, m, m.steps[k].blocks[j])
  {
    var blocks := m.steps[k].blocks;
    j :| 0 <= j < |blocks| && !ResolveInputs(env, m, k, blocks[j]).Ok?;
  }

  /** Generation fails at a block whose model has no provider, or at a
      block whose generation runs out of fuel. */
  lemma GenerationFailure(be: Backend, m: Manager, k: nat, prepared: seq<PromptBlock>, fuel: nat) returns (j: nat)
    requires k < |m.steps| && !(k == 0 && Guarded(m.steps))
    requires |prepared| == |m.steps[k].blocks|
    requires forall j :: 0 <= j < |prepared| ==> SameSettings(prepared[j], m.steps[k].blocks[j])
    requires ProcessPrepared(be, m, k, prepared, fuel).Err?
    ensures var e := ProcessPrepared(be, m, k, prepared, fuel).error;
            && !e.ZeroWordsPerChunk? && j < |prepared|
            && (e.UnsupportedModel? ==> Route(e.model).None? && m.steps[k].blocks[j].model == e.model)
            && (e.FuelExhausted? ==> GenerateBlock(be, prepared[j], fuel).OutOfFuel?)
  {
    var e := ProcessPrepared(be, m, k, prepared, fuel).error;
    var blocks := m.steps[k].blocks;
    j := 0;
    if e.UnsupportedModel? {
      j :| 0 <= j < |blocks| && blocks[j].model == e.model;
    } else if e.FuelExhausted? {
      j :| 0 <= j < |prepared| && GenerateBlock(be, prepared[j], fuel).OutOfFuel?;
    }
  }

  /** A failed step names its cause in one of its own blocks. */
  lemma StepFailure(env: Env, m: Manager, k: nat, fuel: nat) returns (j: nat)
    requires k < |m.steps| && (k == 0 || StepDepsReadable(m.steps, k))
    requires ProcessStep(env, m, k, fuel).Err?
    ensures StepCause(env, m, k, fuel, ProcessStep(env, m, k, fuel).error, j)
  {
    if PrepareAll(env, m, k).Err? {
      j := PrepareFailure(env, m, k);
    } else {
      j := GenerationFailure(env.backend, m, k, PrepareAll(env, m, k).value, fuel);
    }
  }

  // ---------------------------------------------------------------------
  // The loop

  /** A failed step ends the `run_flow` loop with its error. */
  lemma RunFromStepFails(env: Env, m: Manager, i: nat, fuel: nat)
    requires i < |m.steps| && ReadyFrom(m.steps, i)
    ensures ProcessStep(env, m, i, fuel).Err? ==> RunFrom(env, m, i, fuel) == Err(ProcessStep(env, m, i, fuel).error)
  {
  }

  /** After a step that runs, the loop goes on from its result, and its
      calls and saves come first. */
  lemma RunFromStepRuns(env: Env, m: Manager, i: nat, fuel: nat)
    requires i < |m.steps| && ReadyFrom(m.steps, i)
    requires i == 0 || StepDepsReadable(m.steps, i)
    requires ProcessStep(env, m, i, fuel).Ok?
    requires ReadyFrom(ProcessStep(env, m, i, fuel).value.manager.steps, i + 1)
    ensures var run := ProcessStep(env, m, i, fuel).value;
            var rest := RunFrom(env, run.manager, i + 1, fuel);
            var r := RunFrom(env, m, i, fuel);
            && (rest.Err? ==> r == Err(rest.error))
            && (rest.Ok? ==> r.Ok? && r.value.manager == rest.value.manager
                             && r.value.calls == [run.calls] + rest.value.calls
                             && r.value.saves == [run.saves] + rest.value.saves)
  {
  }

  /** `m2` differs from `m` at most in step `i`. */
  predicate OnlyStepChanged(m: Manager, m2: Manager, i: nat) {
    && |m2.steps| == |m.steps| && m2.wordsPerChunk == m.wordsPerChunk && m2.defaultTopK == m.defaultTopK
    && forall t :: 0 <= t < |m.steps| && t != i ==> m2.steps[t] == m.steps[t]
  }

  lemma AdvancedOnlyStep(m: Manager, m2: Manager, i: nat)
    requires Advanced(m, m2, i)
    ensures OnlyStepChanged(m, m2, i)
  {
  }

  /** A run that gets through step `i` goes on from the state step `i`
      left, and that rest of the run gets through too. */
  lemma RunFromOkStep(env: Env, m: Manager, i: nat, fuel: nat)
    requires i < |m.steps| && ReadyFrom(m.steps, i) && RunFrom(env, m, i, fuel).Ok?
    ensures (i == 0 || StepDepsReadable(m.steps, i)) && ProcessStep(env, m, i, fuel).Ok?
    ensures var run := ProcessStep(env, m, i, fuel).value;
            && OnlyStepChanged(m, run.manager, i) && ReadyFrom(run.manager.steps, i + 1)
            && RunFrom(env, run.manager, i + 1, fuel).Ok?
            && var r := RunFrom(env, m, i, fuel).value;
               var rest := RunFrom(env, run.manager, i + 1, fuel).value;
               && r.manager == rest.manager
               && r.calls == [run.calls] + rest.calls && r.saves == [run.saves] + rest.saves
  {
    if i > 0 { ReadyStep(m.steps, i); }
    RunFromStepFails(env, m, i, fuel);
    var run := ProcessStep(env, m, i, fuel).value;
    ReadyNext(m, run.manager, i);
    AdvancedOnlyStep(m, run.manager, i);
    RunFromStepRuns(env, m, i, fuel);
  }

  /** Once step `i` has run, the state it ran on is the one it started
      from. */
  lemma SnapshotFirst(m: Manager, m2: Manager, fin: Manager, i: nat)
    requires i < |m.steps| && OnlyStepChanged(m, m2, i) && |fin.steps| == |m.steps|
    requires forall t :: 0 <= t <= i ==> fin.steps[t] == m2.steps[t]
    ensures Snapshot(m, fin, i) == m
  {
    assert fin.steps[..i] + m.steps[i..] == m.steps;
  }

  /** A later step sees the same state whether the run is taken from
      before step `i` or after it. */
  lemma SnapshotLater(m: Manager, m2: Manager, fin: Manager, i: nat, t: nat)
    requires i < t <= |m.steps| && OnlyStepChanged(m, m2, i) && |fin.steps| == |m.steps|
    ensures Snapshot(m2, fin, t) == Snapshot(m, fin, t)
  {
    assert m2.steps[t..] == m.steps[t..];
  }

  /** Steps `i+1..u-1` having run from the state step `i` left, steps
      `i..u-1` ran from the state before it. */
  lemma RanPrepend(env: Env, m: Manager, m2: Manager, i: nat, u: nat, fuel: nat,
                   c0: seq<seq<Call>>, s0: seq<SaveAction>,
                   fin: Manager, calls: seq<seq<seq<Call>>>, saves: seq<seq<SaveAction>>)
    requires i < u && OnlyStepChanged(m, m2, i)
    requires RanSteps(env, m2, i + 1, u, fuel, fin, calls, saves)
    requires StepMade(env, i == 0 && Guarded(m.steps), m, i, m.steps[i], m2.steps[i], c0, s0, fuel)
    ensures RanSteps(env, m, i, u, fuel, fin, [c0] + calls, [s0] + saves)
  {
    var cs := [c0] + calls;
    var ss := [s0] + saves;
    SnapshotFirst(m, m2, fin, i);
    forall t | i <= t < u
      ensures StepMade(env, t == 0 && Guarded(m.steps), Snapshot(m, fin, t), t, m.steps[t], fin.steps[t],
                       cs[t - i], ss[t - i], fuel)
    {
      if t > i {
        SnapshotLater(m, m2, fin, i, t);
        assert cs[t - i] == calls[t - (i + 1)] && ss[t - i] == saves[t - (i + 1)];
      }
    }
  }

  lemma RanStepsTo(env: Env, m: Manager, i: nat, u: nat, u2: nat, fuel: nat,
                   fin: Manager, calls: seq<seq<seq<Call>>>, saves: seq<seq<SaveAction>>)
    requires RanSteps(env, m, i, u, fuel, fin, calls, saves) && u == u2
    ensures RanSteps(env, m, i, u2, fuel, fin, calls, saves)
  {
  }

  /** A run that gets through goes through every step in order, each on
      the state the steps before it left. */
  lemma {:induction false} RunFromInOrder(env: Env, m: Manager, i: nat, fuel: nat)
    returns (fin: Manager, calls: seq<seq<seq<Call>>>, saves: seq<seq<SaveAction>>)
    requires i <= |m.steps| && ReadyFrom(m.steps, i) && RunFrom(env, m, i, fuel).Ok?
    ensures var r := RunFrom(env, m, i, fuel).value;
            r.manager == fin && r.calls == calls && r.saves == saves
    ensures RanSteps(env, m, i, |m.steps|, fuel, fin, calls, saves)
    decreases |m.steps| - i, 1
  {
    if i == |m.steps| {
      fin, calls, saves := m, [], [];
    } else {
      RunFromOkStep(env, m, i, fuel);
      var run := ProcessStep(env, m, i, fuel).value;
      StepRuns(env, m, i, fuel);
      var later, laterSaves;
      fin, later, laterSaves := InOrderAfterStep(env, m, run.manager, i, fuel, run.calls, run.saves);
      calls, saves := [run.calls] + later, [run.saves] + laterSaves;
    }
  }

  /** When step `i` went through, the later steps ran in order from the
      state it left. */
  lemma {:induction false} InOrderAfterStep(env: Env, m: Manager, m2: Manager, i: nat, fuel: nat,
                                            c0: seq<seq<Call>>, s0: seq<SaveAction>)
    returns (fin: Manager, later: seq<seq<seq<Call>>>, laterSaves: seq<seq<SaveAction>>)
    requires i < |m.steps| && OnlyStepChanged(m, m2, i) && ReadyFrom(m2.steps, i + 1)
    requires StepMade(env, i == 0 && Guarded(m.steps), m, i, m.steps[i], m2.steps[i], c0, s0, fuel)
    requires RunFrom(env, m2, i + 1, fuel).Ok?
    ensures var r := RunFrom(env, m2, i + 1, fuel).value;
            r.manager == fin && r.calls == later && r.saves == laterSaves
    ensures RanSteps(env, m, i, |m.steps|, fuel, fin, [c0] + later, [s0] + laterSaves)
    decreases |m.steps| - i, 0
  {
    var next := i + 1;
    assert RunFrom(env, m2, next, fuel).Ok?;
    fin, later, laterSaves := RunFromInOrder(env, m2, next, fuel);
    RanPrepend(env, m, m2, i, |m2.steps|, fuel, c0, s0, fin, later, laterSaves);
    RanStepsTo(env, m, i, |m2.steps|, |m.steps|, fuel, fin, [c0] + later, [s0] + laterSaves);
  }

  /** `run_flow` processes the steps in ascending order and each finishes
      before the next starts: every block of a step holds the prompt built
      from the inputs it resolves once the earlier steps have run, the text
      generated from that prompt, and that generation's calls and save. */
  lemma RunFlowInOrder(env: Env, m: Manager, fuel: nat)
    requires ReadyFrom(m.steps, 0) && RunFlow(env, m, fuel).Ok?
    ensures var r := RunFlow(env, m, fuel).value;
            RanSteps(env, m, 0, |m.steps|, fuel, r.manager, r.calls, r.saves)
  {
    var fin, calls, saves := RunFromInOrder(env, m, 0, fuel);
  }

  /** One block of a finished `run_flow`, read off the final state: it
      holds the prompt assembled from the inputs it resolved on the state
      the steps before it left, the text generated from that prompt, the
      calls of that generation and the save the text led to; every other
      setting is the block as given. */
  lemma RunFlowBlock(env: Env, m: Manager, fuel: nat, s: nat, j: nat)
    requires ReadyFrom(m.steps, 0) && RunFlow(env, m, fuel).Ok?
    requires s < |m.steps| && !(s == 0 && Guarded(m.steps)) && j < |m.steps[s].blocks|
    ensures var r := RunFlow(env, m, fuel).value;
            var snap := Snapshot(m, r.manager, s);
            var o := m.steps[s].blocks[j];
            && |r.calls| == |m.steps| && |r.calls[s]| == |m.steps[s].blocks|
            && |r.saves| == |m.steps| && |r.saves[s]| == |m.steps[s].blocks|
            && |r.manager.steps[s].blocks| == |m.steps[s].blocks|
            && var b := r.manager.steps[s].blocks[j];
               && DepsReadable(snap.steps, s, o.inputBlocks) && ResolveInputs(env, snap, s, o).Ok?
               && b == o.(prompt := AssemblePrompt(ResolveInputs(env, snap, s, o).value, o.prompt), output := b.output)
               && b.output.Some?
               && GenerateBlock(env.backend, b, fuel) == Generated(b.output.value, r.calls[s][j])
               && r.saves[s][j] == SaveBlockOutput(b)
  {
    RunFlowInOrder(env, m, fuel);
    var r := RunFlow(env, m, fuel).value;
    assert StepMade(env, false, Snapshot(m, r.manager, s), s, m.steps[s], r.manager.steps[s],
                    r.calls[s], r.saves[s], fuel);
  }

  /** Steps `i..u-1` ran and left `fin`; then step `u` failed there with
      `e`, for the cause `StepCause` finds in its block `j`. */
  predicate FailedAt(env: Env, m: Manager, i: nat, fuel: nat, e: FlowError,
                     u: nat, fin: Manager, calls: seq<seq<seq<Call>>>, saves: seq<seq<SaveAction>>, j: nat) {
    && RanSteps(env, m, i, u, fuel, fin, calls, saves) && u < |m.steps|
    && (u == 0 || StepDepsReadable(fin.steps, u))
    && ProcessStep(env, fin, u, fuel) == Err(e)
    && StepCause(env, fin, u, fuel, e, j)
  }

  /** A failed run stopped at one step, after the steps before it ran in
      order. */
  lemma {:induction false} RunFromFailure(env: Env, m: Manager, i: nat, fuel: nat)
    returns (u: nat, fin: Manager, calls: seq<seq<seq<Call>>>, saves: seq<seq<SaveAction>>, j: nat)
    requires i <= |m.steps| && ReadyFrom(m.steps, i) && RunFrom(env, m, i, fuel).Err?
    ensures FailedAt(env, m, i, fuel, RunFrom(env, m, i, fuel).error, u, fin, calls, saves, j)
    decreases |m.steps| - i, 1
  {
    u, fin, calls, saves, j := i, m, [], [], 0;
    if i == |m.steps| {
      assert false;
    } else {
      if i > 0 { ReadyStep(m.steps, i); }
      if ProcessStep(env, m, i, fuel).Err? {
        RunFromStepFails(env, m, i, fuel);
        j := StepFailure(env, m, i, fuel);
      } else {
        var run := ProcessStep(env, m, i, fuel).value;
        StepRuns(env, m, i, fuel);
        ReadyNext(m, run.manager, i);
        AdvancedOnlyStep(m, run.manager, i);
        RunFromStepRuns(env, m, i, fuel);
        u, fin, calls, saves, j :=
          FailureAfterStep(env, m, run.manager, i, fuel, run.calls, run.saves, RunFrom(env, m, i, fuel).error);
      }
    }
  }

  /** When step `i` went through, the failure lies in a later step. */
  lemma {:induction false} FailureAfterStep(env: Env, m: Manager, m2: Manager, i: nat, fuel: nat,
                                            c0: seq<seq<Call>>, s0: seq<SaveAction>, e: FlowError)
    returns (u: nat, fin: Manager, calls: seq<seq<seq<Call>>>, saves: seq<seq<SaveAction>>, j: nat)
    requires i < |m.steps| && OnlyStepChanged(m, m2, i) && ReadyFrom(m2.steps, i + 1)
    requires StepMade(env, i == 0 && Guarded(m.steps), m, i, m.steps[i], m2.steps[i], c0, s0, fuel)
    requires RunFrom(env, m2, i + 1, fuel) == Err(e)
    ensures FailedAt(env, m, i, fuel, e, u, fin, calls, saves, j)
    decreases |m.steps| - i, 0
  {
    var next := i + 1;
    var later, laterSaves;
    u, fin, later, laterSaves, j := RunFromFailure(env, m2, next, fuel);
    RanPrepend(env, m, m2, i, u, fuel, c0, s0, fin, later, laterSaves);
    calls, saves := [c0] + later, [s0] + laterSaves;
  }

  /** A failed `run_flow` stopped at some step `u`, after steps `0..u-1`
      ran in order. The error has its cause in a block `j` of step `u`, on
      the state those steps left. That block searches with a chunk size of
      0, or names the unsupported model reported, or its generation from
      the prompt prepared there ran out of fuel. */
  lemma RunFlowFailure(env: Env, m: Manager, fuel: nat)
    requires ReadyFrom(m.steps, 0) && RunFlow(env, m, fuel).Err?
    ensures exists u: nat, fin, calls, saves, j: nat ::
              FailedAt(env, m, 0, fuel, RunFlow(env, m, fuel).error, u, fin, calls, saves, j)
  {
    var u, fin, calls, saves, j := RunFromFailure(env, m, 0, fuel);
  }

  // ---------------------------------------------------------------------
  // When a run succeeds

  /** Every block `run_flow` runs names a model with a provider, and no
      search of one meets a chunk size of 0 with text to split. */
  predicate Runnable(env: Env, m: Manager) {
    forall s, j :: 0 <= s < |m.steps| && !(s == 0 && Guarded(m.steps)) && 0 <= j < |m.steps[s].blocks| ==>
      Route(m.steps[s].blocks[j].model).Some? && !SearchFails(env, m, m.steps[s].blocks[j])
  }

  /** Every generation the run starts finishes: on each state the steps
      before step `u` leave, generation from each prompt prepared for step
      `u` finishes within the fuel. */
  ghost predicate GenerationsFinish(env: Env, m: Manager, fuel: nat) {
    forall u: nat, fin, calls, saves, j ::
      && RanSteps(env, m, 0, u, fuel, fin, calls, saves) && u < |m.steps|
      && !(u == 0 && Guarded(m.steps))
      && StepDepsReadable(fin.steps, u) && PrepareAll(env, fin, u).Ok?
      && 0 <= j < |PrepareAll(env, fin, u).value|
      ==> GenerateBlock(env.backend, PrepareAll(env, fin, u).value[j], fuel).Generated?
  }

  /** `run_flow` succeeds exactly when every block it runs has a routable
      model and no search of one meets a chunk size of 0 with text to
      split, and every generation it starts finishes. */
  lemma RunFlowSucceeds(env: Env, m: Manager, fuel: nat)
    requires ReadyFrom(m.steps, 0)
    ensures RunFlow(env, m, fuel).Ok? <==> Runnable(env, m) && GenerationsFinish(env, m, fuel)
  {
    if RunFlow(env, m, fuel).Err? {
      var u, fin, calls, saves, j := RunFromFailure(env, m, 0, fuel);
      FailureBreaksCondition(env, m, fuel, RunFlow(env, m, fuel).error, u, fin, calls, saves, j);
    } else {
      RunFlowNeeds(env, m, fuel);
    }
  }

  /** A finished run ran only runnable blocks, and every generation it
      could have started finished. */
  lemma RunFlowNeeds(env: Env, m: Manager, fuel: nat)
    requires ReadyFrom(m.steps, 0) && RunFlow(env, m, fuel).Ok?
    ensures Runnable(env, m) && GenerationsFinish(env, m, fuel)
  {
    forall s, j | 0 <= s < |m.steps| && !(s == 0 && Guarded(m.steps)) && 0 <= j < |m.steps[s].blocks|
      ensures Route(m.steps[s].blocks[j].model).Some? && !SearchFails(env, m, m.steps[s].blocks[j])
    {
      RunFlowBlock(env, m, fuel, s, j);
    }
    forall u: nat, fin, calls, saves, j |
      && RanSteps(env, m, 0, u, fuel, fin, calls, saves) && u < |m.steps|
      && !(u == 0 && Guarded(m.steps))
      && StepDepsReadable(fin.steps, u) && PrepareAll(env, fin, u).Ok?
      && 0 <= j < |PrepareAll(env, fin, u).value|
      ensures GenerateBlock(env.backend, PrepareAll(env, fin, u).value[j], fuel).Generated?
    {
      ReachedGenerates(env, m, fuel, u, fin, calls, saves, j);
    }
  }

  /** Any state the first `u` steps can leave is the one the finished run
      went through, so the generations prepared there are the run's own,
      and they finished. */
  lemma ReachedGenerates(env: Env, m: Manager, fuel: nat, u: nat, fin: Manager,
                         calls: seq<seq<seq<Call>>>, saves: seq<seq<SaveAction>>, j: nat)
    requires ReadyFrom(m.steps, 0) && RunFlow(env, m, fuel).Ok?
    requires RanSteps(env, m, 0, u, fuel, fin, calls, saves) && u < |m.steps| && !(u == 0 && Guarded(m.steps))
    requires StepDepsReadable(fin.steps, u) && PrepareAll(env, fin, u).Ok?
    requires j < |PrepareAll(env, fin, u).value|
    ensures GenerateBlock(env.backend, PrepareAll(env, fin, u).value[j], fuel).Generated?
  {
    RunFlowInOrder(env, m, fuel);
    var r := RunFlow(env, m, fuel).value;
    ReachedIsSnapshot(env, m, fuel, u, fin, calls, saves, r.manager, r.calls, r.saves);
    assert StepMade(env, false, Snapshot(m, r.manager, u), u, m.steps[u], r.manager.steps[u],
                    r.calls[u], r.saves[u], fuel);
    MadeStepGenerates(env, fin, u, m.steps[u], r.manager.steps[u], r.calls[u], r.saves[u], fuel, j);
  }

  /** The state the first `u` steps left is the state a full run gave
      step `u`. */
  lemma ReachedIsSnapshot(env: Env, m: Manager, fuel: nat,
                          u: nat, fin: Manager, calls: seq<seq<seq<Call>>>, saves: seq<seq<SaveAction>>,
                          full: Manager, calls2: seq<seq<seq<Call>>>, saves2: seq<seq<SaveAction>>)
    requires RanSteps(env, m, 0, u, fuel, fin, calls, saves) && u < |m.steps|
    requires RanSteps(env, m, 0, |m.steps|, fuel, full, calls2, saves2)
    ensures fin == Snapshot(m, full, u)
  {
    RanStepsAgree(env, m, fuel, u, fin, calls, saves, |m.steps|, full, calls2, saves2, u);
    assert fin.steps[u..] == m.steps[u..];
    assert fin.steps == fin.steps[..u] + fin.steps[u..];
  }

  /** A step made on `snap` generated each prompt prepared for it there. */
  lemma MadeStepGenerates(env: Env, snap: Manager, u: nat, given: Step, done: Step,
                          c: seq<seq<Call>>, v: seq<SaveAction>, fuel: nat, j: nat)
    requires u < |snap.steps| && snap.steps[u] == given
    requires StepDepsReadable(snap.steps, u) && PrepareAll(env, snap, u).Ok?
    requires j < |PrepareAll(env, snap, u).value|
    requires StepMade(env, false, snap, u, given, done, c, v, fuel)
    ensures GenerateBlock(env.backend, PrepareAll(env, snap, u).value[j], fuel).Generated?
  {
    assert BlockMade(env, snap, u, given.blocks[j], done.blocks[j], c[j], v[j], fuel);
    PreparedPrompts(env, snap, u);
  }

  // ---------------------------------------------------------------------
  // A run is determined by the flow

  /** The block made from `o` on a given state is unique, and so are its
      calls and its save. */
  lemma BlockMadeUnique(env: Env, snap: Manager, s: nat, o: PromptBlock, fuel: nat,
                        b1: PromptBlock, c1: seq<Call>, v1: SaveAction,
                        b2: PromptBlock, c2: seq<Call>, v2: SaveAction)
    requires BlockMade(env, snap, s, o, b1, c1, v1, fuel) && BlockMade(env, snap, s, o, b2, c2, v2, fuel)
    ensures b1 == b2 && c1 == c2 && v1 == v2
  {
    assert GenerateBlock(env.backend, b1, fuel) == GenerateBlock(env.backend, b2, fuel);
  }

  /** The step made from `given` on a given state is unique, and so are
      its calls and its saves. */
  lemma StepMadeUnique(env: Env, guarded: bool, snap: Manager, s: nat, given: Step, fuel: nat,
                       d1: Step, c1: seq<seq<Call>>, v1: seq<SaveAction>,
                       d2: Step, c2: seq<seq<Call>>, v2: seq<SaveAction>)
    requires StepMade(env, guarded, snap, s, given, d1, c1, v1, fuel)
    requires StepMade(env, guarded, snap, s, given, d2, c2, v2, fuel)
    ensures d1 == d2 && c1 == c2 && v1 == v2
  {
    if !guarded {
      forall j | 0 <= j < |given.blocks|
        ensures d1.blocks[j] == d2.blocks[j] && c1[j] == c2[j] && v1[j] == v2[j]
      {
        BlockMadeUnique(env, snap, s, given.blocks[j], fuel, d1.blocks[j], c1[j], v1[j], d2.blocks[j], c2[j], v2[j]);
      }
      assert d1.blocks == d2.blocks;
    }
  }

  /** Two runs of the first steps agree on every step both ran. */
  lemma {:induction false} RanStepsAgree(env: Env, m: Manager, fuel: nat,
                                         u: nat, fin: Manager, calls: seq<seq<seq<Call>>>, saves: seq<seq<SaveAction>>,
                                         n: nat, fin2: Manager, calls2: seq<seq<seq<Call>>>, saves2: seq<seq<SaveAction>>,
                                         t: nat)
    requires RanSteps(env, m, 0, u, fuel, fin, calls, saves)
    requires RanSteps(env, m, 0, n, fuel, fin2, calls2, saves2)
    requires t <= u <= n
    ensures fin.steps[..t] == fin2.steps[..t]
    decreases t
  {
    if t > 0 {
      var k := t - 1;
      RanStepsAgree(env, m, fuel, u, fin, calls, saves, n, fin2, calls2, saves2, k);
      AgreeNext(env, m, fuel, fin, fin2, k, calls[k], saves[k], calls2[k], saves2[k]);
    }
  }

  /** Runs that agree before step `k` and both ran step `k` agree on it. */
  lemma AgreeNext(env: Env, m: Manager, fuel: nat, fin: Manager, fin2: Manager, k: nat,
                  c1: seq<seq<Call>>, v1: seq<SaveAction>, c2: seq<seq<Call>>, v2: seq<SaveAction>)
    requires k < |m.steps| && |fin.steps| == |m.steps| && |fin2.steps| == |m.steps|
    requires fin.steps[..k] == fin2.steps[..k]
    requires StepMade(env, k == 0 && Guarded(m.steps), Snapshot(m, fin, k), k, m.steps[k], fin.steps[k], c1, v1, fuel)
    requires StepMade(env, k == 0 && Guarded(m.steps), Snapshot(m, fin2, k), k, m.steps[k], fin2.steps[k], c2, v2, fuel)
    ensures fin.steps[..k + 1] == fin2.steps[..k + 1]
  {
    assert Snapshot(m, fin, k) == Snapshot(m, fin2, k);
    StepMadeUnique(env, k == 0 && Guarded(m.steps), Snapshot(m, fin, k), k, m.steps[k], fuel,
                   fin.steps[k], c1, v1, fin2.steps[k], c2, v2);
    assert fin.steps[..k + 1] == fin.steps[..k] + [fin.steps[k]];
    assert fin2.steps[..k + 1] == fin2.steps[..k] + [fin2.steps[k]];
  }

  /** A run that stopped at step `u` had a block there that is not
      runnable, or a generation that did not finish. */
  lemma FailureBreaksCondition(env: Env, m: Manager, fuel: nat, e: FlowError,
                               u: nat, fin: Manager, calls: seq<seq<seq<Call>>>, saves: seq<seq<SaveAction>>, j: nat)
    requires FailedAt(env, m, 0, fuel, e, u, fin, calls, saves, j)
    ensures !Runnable(env, m) || !GenerationsFinish(env, m, fuel)
  {
    assert fin.steps[u] == m.steps[u];
    if u == 0 {
      assert fin.steps == m.steps;
    }
  }
}

=== FILE: prompt_block.dfy ===
/** A generation unit of the flow (`PromptBlock` in src/flow/prompt_block.py):
    its prompt, model and generation parameters, the blocks it reads from,
    its optional external data, semantic-search and save settings, and the
    output slot that stays `None` until its step has run. */
module PromptBlocks {
  import opened Wrappers
  import opened Text

  /** The four external-data classes a configuration can name. */
  datatype ExternalKind = WebData | APIData | TXTData | CSVData

  datatype ExternalData = ExternalData(kind: ExternalKind, source: string)

  /** The `semantic_search` dictionary: the three keys the engine reads and
      whether any other key is present. */
  datatype SearchSettings = SearchSettings(
    query: Option<string>,
    topK: Option<int>,
    inputs: Option<seq<string>>,
    otherKeys: bool)
  {
    /** Python truthiness of the dictionary: it has at least one key. */
    predicate NonEmpty() {
      query.Some? || topK.Some? || inputs.Some? || otherKeys
    }
  }

  /** The `save_output` dictionary: `format`, `filename`, and whether any
      other key is present. */
  datatype SaveSettings = SaveSettings(
    format: Option<string>,
    filename: Option<string>,
    otherKeys: bool)
  {
    predicate NonEmpty() {
      format.Some? || filename.Some? || otherKeys
    }
  }

  /** `(step_index, block_index)`, as written in the configuration; either
      may be negative, and Python then counts from the end. */
  type Ref = (int, int)

  datatype PromptBlock = PromptBlock(
    prompt: string,
    model: string,
    maxTokens: int,
    temperature: real,
    output: Option<string>,
    inputBlocks: seq<Ref>,
    externalData: Option<ExternalData>,
    semanticSearch: Option<SearchSettings>,
    saveOutput: Option<SaveSettings>)
  {
    /** `if block.semantic_search:` */
    predicate SearchEnabled() {
      semanticSearch.Some? && semanticSearch.value.NonEmpty()
    }
  }

  const DefaultModel: string := "gpt-3.5-turbo"
  const DefaultMaxTokens: int := 2000
  const DefaultTemperature: real := 0.7

  /** `PromptBlock(prompt, ...)` with the constructor's default arguments. */
  function NewBlock(
    prompt: string,
    model: string := DefaultModel,
    maxTokens: int := DefaultMaxTokens,
    temperature: real := DefaultTemperature,
    externalData: Option<ExternalData> := None,
    semanticSearch: Option<SearchSettings> := None,
    saveOutput: Option<SaveSettings> := None): (b: PromptBlock)
    ensures b.output.None? && b.inputBlocks == []
  {
    PromptBlock(prompt, model, maxTokens, temperature, None, [],
                externalData, semanticSearch, saveOutput)
  }

  /** A block built from a prompt alone uses gpt-3.5-turbo, 2000 tokens and
      temperature 0.7, and has no output, inputs, data or settings yet. */
  lemma NewBlockDefaults(prompt: string)
    ensures NewBlock(prompt)
         == PromptBlock(prompt, "gpt-3.5-turbo", 2000, 0.7, None, [], None, None, None)
  {
  }

  /** `add_input`: the reference goes at the end; nothing else changes. */
  function AddInput(b: PromptBlock, stepIndex: int, blockIndex: int): (r: PromptBlock)
    ensures |r.inputBlocks| == |b.inputBlocks| + 1
    ensures r.inputBlocks[..|b.inputBlocks|] == b.inputBlocks
    ensures r.inputBlocks[|b.inputBlocks|] == (stepIndex, blockIndex)
    ensures r.(inputBlocks := b.inputBlocks) == b
  {
    b.(inputBlocks := b.inputBlocks + [(stepIndex, blockIndex)])
  }

  /** The external-data fetcher: the loaded text, or the message of the
      exception it raised. */
  type Loader = ExternalData -> Result<string, string>

  const LoadErrorPrefix: string := "Erreur lors du chargement des données externes: "

  /** `load_external_data`: `""` without external data, the loaded text on
      success, and on any failure a message that starts with
      `LoadErrorPrefix`; it never raises. */
  function LoadExternalData(load: Loader, b: PromptBlock): (text: string)
    ensures b.externalData.None? ==> text == ""
    ensures b.externalData.Some? && load(b.externalData.value).Ok? ==>
              text == load(b.externalData.value).value
    ensures b.externalData.Some? && load(b.externalData.value).Err? ==>
              StartsWith(text, LoadErrorPrefix)
              && text[|LoadErrorPrefix|..] == load(b.externalData.value).error
  {
    match b.externalData
    case None => ""
    case Some(ed) =>
      match load(ed)
      case Ok(t) => t
      case Err(msg) => LoadErrorPrefix + msg
  }

  /** What `save_block_output` does with a block: nothing, write the output
      as text or as PDF (`filename` absent means the default name built from
      the object's identity), or reject the format, which the method logs and
      swallows. */
  datatype SaveAction =
    | NoSave
    | SaveTxt(content: string, filename: Option<string>)
    | SavePdf(content: string, filename: Option<string>)
    | FormatRejected(format: string)

  /** `if self.save_output and self.output:` */
  predicate WantsSave(b: PromptBlock) {
    b.saveOutput.Some? && b.saveOutput.value.NonEmpty() && b.output.Some? && b.output.value != ""
  }

  /** The requested format, lower-cased, `'txt'` when absent. */
  function SaveFormat(s: SaveSettings): string {
    Lower(s.format.GetOr("txt"))
  }

  /** The format is `txt` when none is given or when the given one spells
      `txt` in any mix of cases, and likewise for `pdf`. */
  lemma SaveFormatIgnoresCase(s: SaveSettings)
    ensures SaveFormat(s) == "txt" <==> s.format.None? || EqualsIgnoringCase(s.format.value, "txt")
    ensures SaveFormat(s) == "pdf" <==> s.format.Some? && EqualsIgnoringCase(s.format.value, "pdf")
  {
    var f := s.format.GetOr("txt");
    LowerMatches(f, "txt");
    LowerMatches(f, "pdf");
    if s.format.None? {
      assert Lower("txt") == "txt";
    } else {
      assert f == s.format.value;
    }
  }

  function SaveBlockOutput(b: PromptBlock): (a: SaveAction)
    ensures a.NoSave? <==> !WantsSave(b)
    ensures a.SaveTxt? <==> WantsSave(b) && SaveFormat(b.saveOutput.value) == "txt"
    ensures a.SavePdf? <==> WantsSave(b) && SaveFormat(b.saveOutput.value) == "pdf"
    ensures a.FormatRejected? ==> a.format !in {"txt", "pdf"}
    ensures (a.SaveTxt? || a.SavePdf?) ==>
              a.content == b.output.value && a.filename == b.saveOutput.value.filename
  {
    if !WantsSave(b) then NoSave
    else
      var fmt := SaveFormat(b.saveOutput.value);
      if fmt == "txt" then SaveTxt(b.output.value, b.saveOutput.value.filename)
      else if fmt == "pdf" then SavePdf(b.output.value, b.saveOutput.value.filename)
      else FormatRejected(fmt)
  }
}

=== FILE: ranking.dfy ===
/** Ranking of chunks by similarity score: `np.argsort` and the top-k slice
    `np.argsort(similarities)[-top_k:][::-1]` taken in `SemanticSearch.search`.
    Scores are real numbers; which of several equal scores `np.argsort`
    puts first is left open. */
module Ranking {

  predicate InRange(o: seq<nat>, n: nat) {
    forall i :: 0 <= i < |o| ==> o[i] < n
  }

  predicate Distinct(o: seq<nat>) {
    forall i, j :: 0 <= i < j < |o| ==> o[i] != o[j]
  }

  predicate Ascending(o: seq<nat>, scores: seq<real>)
    requires InRange(o, |scores|)
  {
    forall i, j :: 0 <= i < j < |o| ==> scores[o[i]] <= scores[o[j]]
  }

  /** `order` lists every index of `scores` exactly once, lowest score
      first: what `np.argsort(scores)` returns, in some order among ties. */
  predicate IsAscendingArgsort(order: seq<nat>, scores: seq<real>) {
    && |order| == |scores|
    && InRange(order, |scores|)
    && (forall j :: 0 <= j < |scores| ==> j in order)
    && Distinct(order)
    && Ascending(order, scores)
  }

  /** Inserts index `x` into `o` before the first index whose score is at
      least `x`'s. */
  function Insert(x: nat, o: seq<nat>, scores: seq<real>): (r: seq<nat>)
    requires x < |scores| && InRange(o, |scores|)
    ensures |r| == |o| + 1 && InRange(r, |scores|)
    ensures forall y :: y in r <==> y == x || y in o
    ensures r[0] == x || (o != [] && r[0] == o[0])
  {
    if o == [] || scores[x] <= scores[o[0]] then
      var r := [x] + o;
      assert forall y :: y in r <==> y == x || y in o;
      r
    else
      var rest := Insert(x, o[1..], scores);
      assert forall y :: y in o <==> y == o[0] || y in o[1..];
      [o[0]] + rest
  }

  /** Insertion keeps an ascending order ascending. */
  lemma {:induction false} InsertAscending(x: nat, o: seq<nat>, scores: seq<real>)
    requires x < |scores| && InRange(o, |scores|) && Ascending(o, scores)
    ensures Ascending(Insert(x, o, scores), scores)
    decreases |o|
  {
    if o != [] && scores[x] > scores[o[0]] {
      var rest := Insert(x, o[1..], scores);
      var r := [o[0]] + rest;
      assert Insert(x, o, scores) == r;
      InsertAscending(x, o[1..], scores);
      forall i | 0 < i < |r| ensures scores[r[0]] <= scores[r[i]] {
        assert r[i] in rest;
        if r[i] != x {
          var p :| 0 <= p < |o[1..]| && o[1..][p] == r[i];
          assert o[p + 1] == r[i];
        }
      }
    }
  }

  /** Inserting a new index keeps the indices distinct. */
  lemma {:induction false} InsertDistinct(x: nat, o: seq<nat>, scores: seq<real>)
    requires x < |scores| && InRange(o, |scores|) && Distinct(o) && x !in o
    ensures Distinct(Insert(x, o, scores))
    decreases |o|
  {
    if o != [] && scores[x] > scores[o[0]] {
      var rest := Insert(x, o[1..], scores);
      var r := [o[0]] + rest;
      assert Insert(x, o, scores) == r;
      assert x !in o[1..];
      InsertDistinct(x, o[1..], scores);
      forall i | 0 < i < |r| ensures r[0] != r[i] {
        assert r[i] in rest;
        if r[i] != x {
          var p :| 0 <= p < |o[1..]| && o[1..][p] == r[i];
          assert o[p + 1] == r[i];
        }
      }
    }
  }

  /** The indices `0 .. n-1` of `scores`, sorted by insertion. */
  function SortIndices(scores: seq<real>, n: nat): (r: seq<nat>)
    requires n <= |scores|
    ensures |r| == n && InRange(r, n) && Distinct(r) && Ascending(r, scores)
    ensures forall j :: 0 <= j < n ==> j in r
  {
    if n == 0 then []
    else
      var o := SortIndices(scores, n - 1);
      var r := Insert(n - 1, o, scores);
      InsertAscending(n - 1, o, scores);
      assert n - 1 !in o by {
        assert forall i :: 0 <= i < |o| ==> o[i] < n - 1;
      }
      InsertDistinct(n - 1, o, scores);
      assert InRange(r, n) by {
        forall i | 0 <= i < |r| ensures r[i] < n {
          assert r[i] in r;
        }
      }
      r
  }

  /** One ascending argsort; it keeps equal scores in index order. */
  function Argsort(scores: seq<real>): (order: seq<nat>)
    ensures IsAscendingArgsort(order, scores)
  {
    SortIndices(scores, |scores|)
  }

  /** Every function that returns an ascending argsort of its argument:
      the model of `np.argsort`, whose order among equal scores is not
      fixed. */
  type Argsorter = f: seq<real> -> seq<nat> | forall s :: IsAscendingArgsort(f(s), s)
    witness Argsort

  /** Where Python's slice `a[m:]` starts on a list of length `n`. */
  function SliceStart(n: nat, m: int): nat {
    if m < 0 then (if n + m < 0 then 0 else n + m)
    else if m < n then m
    else n
  }

  /** `a[::-1]`. */
  function Reverse<T>(a: seq<T>): (r: seq<T>)
    ensures |r| == |a|
    ensures forall i :: 0 <= i < |a| ==> r[i] == a[|a| - 1 - i]
  {
    seq(|a|, i requires 0 <= i < |a| => a[|a| - 1 - i])
  }

  /** Reversing twice gives the list back. */
  lemma ReverseInvolution<T>(a: seq<T>)
    ensures Reverse(Reverse(a)) == a
  {
    var r := Reverse(Reverse(a));
    assert forall i :: 0 <= i < |a| ==> r[i] == a[i];
  }

  /** Reversing a non-empty list puts its last element first. */
  lemma ReverseLast<T>(a: seq<T>)
    requires |a| > 0
    ensures Reverse(a) == [a[|a| - 1]] + Reverse(a[..|a| - 1])
  {
    var b := [a[|a| - 1]] + Reverse(a[..|a| - 1]);
    assert forall i :: 0 <= i < |a| ==> Reverse(a)[i] == b[i];
  }

  /** Reversing only reorders: every element keeps its multiplicity. */
  lemma {:induction false} ReversePermutes<T>(a: seq<T>)
    ensures multiset(Reverse(a)) == multiset(a)
    decreases |a|
  {
    if |a| > 0 {
      var n := |a| - 1;
      ReverseLast(a);
      ReversePermutes(a[..n]);
      assert a == a[..n] + [a[n]];
    }
  }

  /** How many results `top_k` yields over `n` chunks: `min(top_k, n)` for a
      positive `top_k`, all `n` for zero (the slice `[-0:]` is the whole
      list), and `n` less the `|top_k|` lowest for a negative one. */
  function TopCount(n: nat, k: int): nat {
    if k > 0 then (if k < n then k else n)
    else if k == 0 then n
    else if n + k > 0 then n + k
    else 0
  }

  /** `order[start:][::-1]` read back into `order`. */
  lemma ReversedSuffix(order: seq<nat>, start: nat, top: seq<nat>)
    requires start <= |order| && top == Reverse(order[start..])
    ensures |top| == |order| - start
    ensures forall i :: 0 <= i < |top| ==> top[i] == order[|order| - 1 - i]
    ensures forall q :: start <= q < |order| ==> order[q] in top
  {
    forall q | start <= q < |order| ensures order[q] in top {
      assert top[|order| - 1 - q] == order[q];
    }
  }

  /** The reversed suffix of an ascending argsort lists distinct indices,
      best score first. */
  lemma SuffixSorted(scores: seq<real>, order: seq<nat>, start: nat, top: seq<nat>)
    requires IsAscendingArgsort(order, scores) && start <= |order| && top == Reverse(order[start..])
    ensures InRange(top, |scores|) && Distinct(top)
    ensures forall i, j :: 0 <= i < j < |top| ==> scores[top[i]] >= scores[top[j]]
  {
    ReversedSuffix(order, start, top);
  }

  /** No index left out of the suffix scores above one kept in it. */
  lemma SuffixDominates(scores: seq<real>, order: seq<nat>, start: nat, top: seq<nat>)
    requires IsAscendingArgsort(order, scores) && start <= |order| && top == Reverse(order[start..])
    ensures forall i, j :: 0 <= i < |top| && 0 <= j < |scores| && j !in top ==> scores[j] <= scores[top[i]]
    ensures start == 0 ==> forall j :: 0 <= j < |scores| ==> j in top
  {
    ReversedSuffix(order, start, top);
    forall i, j | 0 <= i < |top| && 0 <= j < |scores| && j !in top
      ensures scores[j] <= scores[top[i]]
    {
      assert j in order;
      var p :| 0 <= p < |order| && order[p] == j;
      assert p < start;
    }
    if start == 0 {
      forall j | 0 <= j < |scores| ensures j in top {
        assert j in order;
        var p :| 0 <= p < |order| && order[p] == j;
      }
    }
  }

  /** `order[-k:][::-1]`: the indices of the best `k` scores, best first. */
  function TopIndices(scores: seq<real>, order: seq<nat>, k: int): (top: seq<nat>)
    requires IsAscendingArgsort(order, scores)
    ensures |top| == TopCount(|scores|, k)
    ensures InRange(top, |scores|) && Distinct(top)
    ensures forall i, j :: 0 <= i < j < |top| ==> scores[top[i]] >= scores[top[j]]
    ensures forall i, j :: 0 <= i < |top| && 0 <= j < |scores| && j !in top ==>
              scores[j] <= scores[top[i]]
    ensures TopCount(|scores|, k) == |scores| ==> forall j :: 0 <= j < |scores| ==> j in top
  {
    var start := SliceStart(|order|, -k);
    var top := Reverse(order[start..]);
    ReversedSuffix(order, start, top);
    SuffixSorted(scores, order, start, top);
    SuffixDominates(scores, order, start, top);
    top
  }
}

=== FILE: semantic_search.dfy ===
/** `SemanticSearch` (src/flow/semantic_search.py): fixed-size word chunking
    of a text and the top-k selection of chunks by similarity to a query.
    The embeddings and their cosine similarity are one oracle, `Similarity`,
    and the sort is any ascending argsort (`Ranking.Argsorter`). */
module SemanticSearch {
  import opened Text
  import opened Ranking

  /** The groups `words[i:i+w]` for `i` in `range(0, len(words), w)`. */
  function Chunks(ws: seq<string>, w: nat): (cs: seq<seq<string>>)
    requires w > 0
    decreases |ws|
  {
    if ws == [] then []
    else
      var n := if w < |ws| then w else |ws|;
      [ws[..n]] + Chunks(ws[n..], w)
  }

  /** Chunking loses, duplicates and reorders nothing; there are
      ceil(n / w) chunks (the least `c` with `n <= c * w`), each but the last
      holds exactly `w` words and the last between 1 and `w`. */
  lemma {:induction false} ChunksShape(ws: seq<string>, w: nat)
    requires w > 0
    ensures Concat(Chunks(ws, w)) == ws
    ensures |ws| <= |Chunks(ws, w)| * w
    ensures |Chunks(ws, w)| > 0 ==> (|Chunks(ws, w)| - 1) * w < |ws|
    ensures forall i :: 0 <= i < |Chunks(ws, w)| - 1 ==> |Chunks(ws, w)[i]| == w
    ensures forall i :: 0 <= i < |Chunks(ws, w)| ==> 0 < |Chunks(ws, w)[i]| <= w
    decreases |ws|
  {
    if ws != [] {
      var n := if w < |ws| then w else |ws|;
      var rest := Chunks(ws[n..], w);
      ChunksShape(ws[n..], w);
      var cs := Chunks(ws, w);
      assert cs == [ws[..n]] + rest;
      assert Concat(cs) == ws[..n] + Concat(rest);
      assert ws[..n] + ws[n..] == ws;
      assert |cs| * w == |rest| * w + w by {
        MulSucc(|rest|, w);
      }
      if rest != [] {
        assert (|cs| - 1) * w == (|rest| - 1) * w + w by {
          MulSucc(|rest| - 1, w);
        }
      }
    }
  }

  lemma MulSucc(a: nat, w: nat)
    ensures (a + 1) * w == a * w + w
  {
  }

  /** The `k`-th chunk is the slice `words[k*w : k*w + w]` of the
      comprehension in `split_text`. */
  lemma {:induction false} ChunkAt(ws: seq<string>, w: nat, k: nat)
    requires w > 0 && k < |Chunks(ws, w)|
    ensures k * w < |ws|
    ensures Chunks(ws, w)[k] == ws[k * w .. if k * w + w < |ws| then k * w + w else |ws|]
    decreases k
  {
    if k > 0 {
      ChunksTail(ws, w, k);
      ChunkAt(ws[w..], w, k - 1);
      MulSucc(k - 1, w);
      ShiftedSlice(ws, w, (k - 1) * w, k * w);
    }
  }

  /** Past the first chunk, the chunks are those of the words after it. */
  lemma ChunksTail(ws: seq<string>, w: nat, k: nat)
    requires w > 0 && 0 < k < |Chunks(ws, w)|
    ensures w < |ws| && k - 1 < |Chunks(ws[w..], w)|
    ensures Chunks(ws, w)[k] == Chunks(ws[w..], w)[k - 1]
  {
    var n := if w < |ws| then w else |ws|;
    assert Chunks(ws, w) == [ws[..n]] + Chunks(ws[n..], w);
  }

  /** A slice of the words after the first `w`, shifted back by `w`. */
  lemma ShiftedSlice(ws: seq<string>, w: nat, a: nat, b: nat)
    requires w <= |ws| && a < |ws| - w && b == a + w
    ensures ws[w..][a .. if a + w < |ws| - w then a + w else |ws| - w]
         == ws[b .. if b + w < |ws| then b + w else |ws|]
  {
    var e := if a + w < |ws| - w then a + w else |ws| - w;
    SliceOfSlice(ws, w, a, e);
  }

  lemma SliceOfSlice<T>(s: seq<T>, n: nat, a: nat, e: nat)
    requires n <= |s| && a <= e <= |s| - n
    ensures s[n..][a..e] == s[n + a .. n + e]
  {
  }

  /** Python's `SemanticSearch.split_text(text, words_per_chunk)`. A step of
      0 makes `range` raise, hence the precondition; a negative step gives
      an empty range. */
  function SplitText(text: string, w: int): (chunks: seq<string>)
    requires w != 0
  {
    if w < 0 then []
    else
      var groups := Chunks(Words(text), w);
      seq(|groups|, i requires 0 <= i < |groups| => Join(" ", groups[i]))
  }

  lemma {:induction false} JoinOfJoins(groups: seq<seq<string>>)
    requires forall i :: 0 <= i < |groups| ==> |groups[i]| > 0
    ensures Join(" ", seq(|groups|, i requires 0 <= i < |groups| => Join(" ", groups[i])))
         == Join(" ", Concat(groups))
    decreases |groups|
  {
    var joined := seq(|groups|, i requires 0 <= i < |groups| => Join(" ", groups[i]));
    if |groups| > 1 {
      var tail := groups[1..];
      var joinedTail := seq(|tail|, i requires 0 <= i < |tail| => Join(" ", tail[i]));
      assert joined[1..] == joinedTail;
      JoinOfJoins(tail);
      ConcatNonEmpty(tail);
      JoinAppend(" ", groups[0], Concat(tail));
    } else if |groups| == 1 {
      assert Concat(groups) == groups[0] + Concat(groups[1..]);
      assert groups[0] + [] == groups[0];
    }
  }

  lemma {:induction false} ConcatNonEmpty(groups: seq<seq<string>>)
    requires |groups| > 0 && |groups[0]| > 0
    ensures |Concat(groups)| > 0
  {
  }

  /** Round trip of `split_text`: re-joining the chunks with single spaces
      gives the words of the text joined with single spaces, and a blank text
      gives no chunk. */
  lemma SplitTextRoundTrip(text: string, w: int)
    requires w > 0
    ensures Join(" ", SplitText(text, w)) == Join(" ", Words(text))
    ensures SplitText(text, w) == [] <==> AllSpace(text)
  {
    var groups := Chunks(Words(text), w);
    ChunksShape(Words(text), w);
    JoinOfJoins(groups);
  }

  /** The chunks of `split_text` are ceil(n / w) in number for `n` words;
      each but the last has exactly `w` words and the last between 1 and
      `w`, and chunk `i` re-splits into the `i`-th group of words. */
  lemma SplitTextSizes(text: string, w: int)
    requires w > 0
    ensures |Words(text)| <= |SplitText(text, w)| * w
    ensures |SplitText(text, w)| > 0 ==> (|SplitText(text, w)| - 1) * w < |Words(text)|
    ensures forall i :: 0 <= i < |SplitText(text, w)| ==>
              Words(SplitText(text, w)[i]) == Chunks(Words(text), w)[i]
    ensures forall i :: 0 <= i < |SplitText(text, w)| - 1 ==>
              |Words(SplitText(text, w)[i])| == w
    ensures forall i :: 0 <= i < |SplitText(text, w)| ==>
              0 < |Words(SplitText(text, w)[i])| <= w
  {
    var chunks := SplitText(text, w);
    var groups := Chunks(Words(text), w);
    ChunksShape(Words(text), w);
    assert |chunks| == |groups|;
    forall i | 0 <= i < |groups|
      ensures Words(chunks[i]) == groups[i]
    {
      ConcatAllWords(groups, i);
      WordsOfJoin(groups[i]);
    }
  }

  /** Cosine similarity of the embeddings of a query and a chunk. */
  type Similarity = (string, string) -> real

  function Scores(sim: Similarity, query: string, chunks: seq<string>): (scores: seq<real>)
    ensures |scores| == |chunks|
    ensures forall i :: 0 <= i < |chunks| ==> scores[i] == sim(query, chunks[i])
  {
    seq(|chunks|, i requires 0 <= i < |chunks| => sim(query, chunks[i]))
  }

  /** `r` lists the chunks at the distinct indices `top`, each with its own
      score, best first, and no chunk left out scores above a returned one. */
  predicate RankedSelection(r: seq<(string, real)>, chunks: seq<string>,
                            scores: seq<real>, top: seq<nat>)
  {
    && |scores| == |chunks|
    && |top| == |r|
    && InRange(top, |chunks|)
    && Distinct(top)
    && (forall i :: 0 <= i < |r| ==> r[i] == (chunks[top[i]], scores[top[i]]))
    && (forall i, j :: 0 <= i < j < |r| ==> r[i].1 >= r[j].1)
    && (forall i, j :: 0 <= i < |r| && 0 <= j < |chunks| && j !in top ==> scores[j] <= r[i].1)
  }

  lemma SelectionOfTop(chunks: seq<string>, scores: seq<real>, order: seq<nat>, k: int,
                       r: seq<(string, real)>)
    requires |scores| == |chunks| && IsAscendingArgsort(order, scores)
    requires var top := TopIndices(scores, order, k);
             |r| == |top| && forall i :: 0 <= i < |r| ==> r[i] == (chunks[top[i]], scores[top[i]])
    ensures RankedSelection(r, chunks, scores, TopIndices(scores, order, k))
  {
  }

  lemma AllChunksKept(chunks: seq<string>, scores: seq<real>, order: seq<nat>, k: int,
                      r: seq<(string, real)>)
    requires |scores| == |chunks| && IsAscendingArgsort(order, scores)
    requires k == 0 || k >= |chunks|
    requires var top := TopIndices(scores, order, k);
             |r| == |top| && forall i :: 0 <= i < |r| ==> r[i].0 == chunks[top[i]]
    ensures forall c :: c in chunks ==> exists i :: 0 <= i < |r| && r[i].0 == c
  {
    var top := TopIndices(scores, order, k);
    forall c | c in chunks ensures exists i :: 0 <= i < |r| && r[i].0 == c {
      var j :| 0 <= j < |chunks| && chunks[j] == c;
      assert j in top;
      var i :| 0 <= i < |top| && top[i] == j;
      assert r[i].0 == c;
    }
  }

  /** `SemanticSearch.search(session, query, text, top_k)`. */
  function Search(sim: Similarity, argsort: Argsorter, wordsPerChunk: int,
                  query: string, text: string, topK: int): (r: seq<(string, real)>)
    requires wordsPerChunk != 0
    ensures |r| == TopCount(|SplitText(text, wordsPerChunk)|, topK)
    ensures exists top :: RankedSelection(r, SplitText(text, wordsPerChunk),
                                          Scores(sim, query, SplitText(text, wordsPerChunk)), top)
    ensures (topK == 0 || topK >= |SplitText(text, wordsPerChunk)|) ==>
              forall c :: c in SplitText(text, wordsPerChunk) ==>
                exists i :: 0 <= i < |r| && r[i].0 == c
  {
    var chunks := SplitText(text, wordsPerChunk);
    var scores := Scores(sim, query, chunks);
    var order := argsort(scores);
    var top := TopIndices(scores, order, topK);
    var r := seq(|top|, i requires 0 <= i < |top| => (chunks[top[i]], scores[top[i]]));
    SelectionOfTop(chunks, scores, order, topK, r);
    if topK == 0 || topK >= |chunks| then
      AllChunksKept(chunks, scores, order, topK, r);
      r
    else
      r
  }
}

=== FILE: step.dfy ===
/** A stage of the flow (`Step` in src/flow/step.py): an ordered list of
    blocks. */
module Steps {
  import opened PromptBlocks

  datatype Step = Step(blocks: seq<PromptBlock>)

  /** `Step()`: a stage starts with no blocks. */
  function NewStep(): (s: Step)
    ensures |s.blocks| == 0
  {
    Step([])
  }

  /** `add_block`: the block, exactly as given, goes after the existing
      ones, which keep their order. */
  function AddBlock(s: Step, b: PromptBlock): (r: Step)
    ensures |r.blocks| == |s.blocks| + 1
    ensures r.blocks[..|s.blocks|] == s.blocks
    ensures r.blocks[|s.blocks|] == b
  {
    Step(s.blocks + [b])
  }
}

=== FILE: text.dfy ===
/** The handful of Python string operations the flow engine relies on:
    `str.split()` with no argument, `sep.join(parts)`, `str.startswith`,
    `str.lower`, slicing `s[:n]` and `str(i)` for integers. Strings are
    sequences of Unicode scalar values, as Python's `str` is a sequence of
    code points. */
module Text {

  /** Python's `str.isspace()` for one code point: the ASCII controls
      TAB..CR and FS..US, the space, NEL, NO-BREAK SPACE and the Unicode
      space separators. */
  predicate IsSpace(c: char) {
    || c == ' '
    || ('\t' <= c <= '\r')
    || ('\U{1c}' <= c <= '\U{1f}')
    || c == '\U{85}'
    || c == '\U{a0}'
    || c == '\U{1680}'
    || ('\U{2000}' <= c <= '\U{200a}')
    || c == '\U{2028}'
    || c == '\U{2029}'
    || c == '\U{202f}'
    || c == '\U{205f}'
    || c == '\U{3000}'
  }

  predicate AllSpace(s: string) {
    forall i :: 0 <= i < |s| ==> IsSpace(s[i])
  }

  /** A word as `str.split()` produces it: non-empty, no whitespace. */
  predicate IsWord(w: string) {
    |w| > 0 && forall i :: 0 <= i < |w| ==> !IsSpace(w[i])
  }

  predicate AllWords(ws: seq<string>) {
    forall i :: 0 <= i < |ws| ==> IsWord(ws[i])
  }

  /** `s` without its leading whitespace. */
  function SkipSpace(s: string): (r: string)
    ensures |r| <= |s|
    ensures r == [] || (!IsSpace(r[0]) && r[0] == s[|s| - |r|])
    ensures r == [] <==> AllSpace(s)
  {
    if s != [] && IsSpace(s[0]) then SkipSpace(s[1..]) else s
  }

  /** Length of the run of non-whitespace characters that starts `s`. */
  function WordLen(s: string): (n: nat)
    ensures n <= |s|
    ensures forall i :: 0 <= i < n ==> !IsSpace(s[i])
    ensures n == |s| || IsSpace(s[n])
  {
    if s != [] && !IsSpace(s[0]) then 1 + WordLen(s[1..]) else 0
  }

  /** Python's `s.split()`: the maximal runs of non-whitespace, in order. */
  function Words(s: string): (ws: seq<string>)
    ensures AllWords(ws)
    ensures ws == [] <==> AllSpace(s)
    decreases |s|
  {
    var t := SkipSpace(s);
    if t == [] then []
    else
      var n := WordLen(t);
      var w := t[..n];
      assert IsWord(w) by {
        forall i | 0 <= i < |w| ensures !IsSpace(w[i]) {
          assert w[i] == t[i];
        }
      }
      var rest := Words(t[n..]);
      assert !AllSpace(s) by { assert !IsSpace(s[|s| - |t|]); }
      [w] + rest
  }

  /** Python's `sep.join(parts)`. */
  function Join(sep: string, parts: seq<string>): string {
    if |parts| == 0 then ""
    else if |parts| == 1 then parts[0]
    else parts[0] + sep + Join(sep, parts[1..])
  }

  /** Python's `sum(groups, [])`: the groups laid end to end. */
  function Concat<T>(groups: seq<seq<T>>): seq<T> {
    if groups == [] then [] else groups[0] + Concat(groups[1..])
  }

  /** Python's `s.startswith(prefix)`. */
  predicate StartsWith(s: string, prefix: string) {
    |prefix| <= |s| && s[..|prefix|] == prefix
  }

  /** Python's `s[:n]` for `n >= 0`. */
  function Prefix(s: string, n: nat): (r: string)
    ensures |r| <= n && StartsWith(s, r)
    ensures n < |s| ==> |r| == n
    ensures |s| <= n ==> r == s
  {
    if n < |s| then s[..n] else s
  }

  function LowerChar(c: char): char {
    if 'A' <= c <= 'Z' then (c as int + 32) as char else c
  }

  /** Python's `s.lower()` on the ASCII letters. */
  function Lower(s: string): (r: string)
    ensures |r| == |s|
    ensures forall i :: 0 <= i < |s| ==> r[i] == LowerChar(s[i])
  {
    seq(|s|, i requires 0 <= i < |s| => LowerChar(s[i]))
  }

  predicate IsUpper(c: char) {
    'A' <= c <= 'Z'
  }

  /** Two characters equal up to the case of an ASCII letter: the same, or
      an upper-case letter and its lower-case partner, 32 code points on. */
  predicate SameLetterIgnoringCase(c: char, d: char) {
    || c == d
    || (IsUpper(c) && d as int == c as int + 32)
    || (IsUpper(d) && c as int == d as int + 32)
  }

  /** Two strings equal up to the case of ASCII letters. */
  predicate EqualsIgnoringCase(a: string, b: string) {
    |a| == |b| && forall i :: 0 <= i < |a| ==> SameLetterIgnoringCase(a[i], b[i])
  }

  /** Lower-casing is done once and for all. */
  lemma LowerIdempotent(s: string)
    ensures Lower(Lower(s)) == Lower(s)
  {
    assert forall i :: 0 <= i < |s| ==> Lower(Lower(s))[i] == Lower(s)[i];
  }

  /** Comparing `s.lower()` with a string free of upper-case letters is
      comparing `s` with it ignoring case. */
  lemma LowerMatches(s: string, t: string)
    requires forall i :: 0 <= i < |t| ==> !IsUpper(t[i])
    ensures Lower(s) == t <==> EqualsIgnoringCase(s, t)
  {
    if Lower(s) == t {
      forall i | 0 <= i < |s| ensures SameLetterIgnoringCase(s[i], t[i]) {
        assert t[i] == LowerChar(s[i]);
      }
    }
    if EqualsIgnoringCase(s, t) {
      forall i | 0 <= i < |s| ensures Lower(s)[i] == t[i] {
        assert SameLetterIgnoringCase(s[i], t[i]) && !IsUpper(t[i]);
      }
    }
  }

  function Digit(d: nat): char
    requires d < 10
  {
    "0123456789"[d]
  }

  /** Python's `str(n)` for a natural number. */
  function NatToString(n: nat): (r: string)
    ensures |r| > 0
    ensures forall i :: 0 <= i < |r| ==> '0' <= r[i] <= '9'
  {
    if n < 10 then [Digit(n)] else NatToString(n / 10) + [Digit(n % 10)]
  }

  /** Python's `str(i)` for an integer. */
  function IntToString(i: int): string {
    if i < 0 then "-" + NatToString(-i) else NatToString(i)
  }

  /** Leading whitespace does not change the words. */
  lemma {:induction false} WordsSkipsSpace(c: char, s: string)
    requires IsSpace(c)
    ensures Words([c] + s) == Words(s)
  {
    assert ([c] + s)[1..] == s;
    assert SkipSpace([c] + s) == SkipSpace(s);
  }

  lemma {:induction false} WordLenOfWord(w: string, rest: string)
    requires IsWord(w)
    requires rest == [] || IsSpace(rest[0])
    ensures WordLen(w + rest) == |w|
    decreases |w|
  {
    if |w| > 1 {
      assert (w + rest)[1..] == w[1..] + rest;
      WordLenOfWord(w[1..], rest);
    } else {
      assert (w + rest)[1..] == rest;
    }
  }

  /** A word followed by whitespace (or nothing) splits off as one word. */
  lemma {:induction false} WordsOfWordThen(w: string, rest: string)
    requires IsWord(w)
    requires rest == [] || IsSpace(rest[0])
    ensures Words(w + rest) == [w] + Words(rest)
  {
    var s := w + rest;
    assert SkipSpace(s) == s;
    WordLenOfWord(w, rest);
    assert s[..|w|] == w;
    assert s[|w|..] == rest;
  }

  /** Round trip: splitting the single-space join of words gives back the
      words. */
  lemma {:induction false} WordsOfJoin(ws: seq<string>)
    requires AllWords(ws)
    ensures Words(Join(" ", ws)) == ws
  {
    if |ws| == 0 {
    } else if |ws| == 1 {
      WordsOfWordThen(ws[0], "");
      assert ws[0] + "" == ws[0];
    } else {
      var tail := Join(" ", ws[1..]);
      assert AllWords(ws[1..]) by {
        forall i | 0 <= i < |ws| - 1 ensures IsWord(ws[1..][i]) {
          assert ws[1..][i] == ws[i + 1];
        }
      }
      assert Join(" ", ws) == ws[0] + " " + tail;
      WordThenSpace(ws[0], tail);
      WordsOfJoin(ws[1..]);
      assert [ws[0]] + ws[1..] == ws;
    }
  }

  /** A word, a space, then anything: the word splits off first. */
  lemma WordThenSpace(w: string, tail: string)
    requires IsWord(w)
    ensures Words(w + " " + tail) == [w] + Words(tail)
  {
    assert w + " " + tail == w + ([' '] + tail);
    WordsOfWordThen(w, [' '] + tail);
    WordsSkipsSpace(' ', tail);
  }

  /** A single word splits to itself. */
  lemma WordsOfWord(w: string)
    requires IsWord(w)
    ensures Words(w) == [w]
  {
    WordsOfWordThen(w, "");
    assert w + "" == w;
  }

  /** `s` splits as its first word, then the rest after that word. */
  lemma FirstWord(s: string) returns (w: string, rest: string)
    requires s != [] && !IsSpace(s[0])
    ensures s == w + rest && IsWord(w)
    ensures rest == [] || IsSpace(rest[0])
    ensures |rest| < |s|
  {
    var n := WordLen(s);
    assert n >= 1;
    w, rest := s[..n], s[n..];
    assert s == w + rest;
    assert forall i :: 0 <= i < |w| ==> w[i] == s[i];
  }

  /** Whitespace separates: the words on either side of one whitespace
      character are the words of each side, in order. Together with
      `WordsOfWord` this says `Words` is `str.split()`. */
  lemma {:induction false} WordsSplitAtSpace(a: string, c: char, b: string)
    requires IsSpace(c)
    ensures Words(a + [c] + b) == Words(a) + Words(b)
    decreases |a|
  {
    if a == [] {
      assert a + [c] + b == [c] + b;
      WordsSkipsSpace(c, b);
    } else if IsSpace(a[0]) {
      WordsSplitAtSpace(a[1..], c, b);
      SplitAfterSpace(a[0], a[1..], c, b);
      assert a == [a[0]] + a[1..];
    } else {
      var w, rest := FirstWord(a);
      WordsSplitAtSpace(rest, c, b);
      SplitAfterWord(w, rest, c, b);
    }
  }

  /** The step of `WordsSplitAtSpace` past one leading whitespace character. */
  lemma SplitAfterSpace(d: char, a: string, c: char, b: string)
    requires IsSpace(d) && Words(a + [c] + b) == Words(a) + Words(b)
    ensures Words([d] + a + [c] + b) == Words([d] + a) + Words(b)
  {
    Regroup([d], a, c, b);
    WordsSkipsSpace(d, a + [c] + b);
    WordsSkipsSpace(d, a);
  }

  /** The step of `WordsSplitAtSpace` past one leading word. */
  lemma SplitAfterWord(w: string, rest: string, c: char, b: string)
    requires IsWord(w) && (rest == [] || IsSpace(rest[0])) && IsSpace(c)
    requires Words(rest + [c] + b) == Words(rest) + Words(b)
    ensures Words(w + rest + [c] + b) == Words(w + rest) + Words(b)
  {
    WordBeforeSeparator(w, rest, c, b);
    Regroup(w, rest, c, b);
    WordsOfWordThen(w, rest);
    PrependRegroup(w, Words(rest), Words(b));
  }

  lemma WordBeforeSeparator(w: string, rest: string, c: char, b: string)
    requires IsWord(w) && (rest == [] || IsSpace(rest[0])) && IsSpace(c)
    ensures Words(w + (rest + [c] + b)) == [w] + Words(rest + [c] + b)
  {
    var tail := rest + [c] + b;
    assert IsSpace(tail[0]);
    WordsOfWordThen(w, tail);
  }

  lemma PrependRegroup(w: string, x: seq<string>, y: seq<string>)
    ensures [w] + (x + y) == ([w] + x) + y
  {
  }

  lemma Regroup(w: string, rest: string, c: char, b: string)
    ensures w + rest + [c] + b == w + (rest + [c] + b)
  {
  }

  /** The non-whitespace characters of `s`, in order. */
  function NonSpace(s: string): string {
    if s == [] then [] else (if IsSpace(s[0]) then [] else [s[0]]) + NonSpace(s[1..])
  }

  lemma {:induction false} NonSpaceAppend(a: string, b: string)
    ensures NonSpace(a + b) == NonSpace(a) + NonSpace(b)
    decreases |a|
  {
    if a != [] {
      assert (a + b)[1..] == a[1..] + b;
      NonSpaceAppend(a[1..], b);
    } else {
      assert a + b == b;
    }
  }

  lemma {:induction false} NonSpaceOfWord(w: string)
    requires forall i :: 0 <= i < |w| ==> !IsSpace(w[i])
    ensures NonSpace(w) == w
    decreases |w|
  {
    if w != [] {
      assert forall i :: 0 <= i < |w| - 1 ==> w[1..][i] == w[i + 1];
      NonSpaceOfWord(w[1..]);
    }
  }

  /** The words, laid end to end, are exactly the non-whitespace
      characters of `s`: `str.split()` drops whitespace and nothing else. */
  lemma {:induction false} ConcatWords(s: string)
    ensures Concat(Words(s)) == NonSpace(s)
    decreases |s|
  {
    if s == [] {
    } else if IsSpace(s[0]) {
      assert s == [s[0]] + s[1..];
      WordsSkipsSpace(s[0], s[1..]);
      ConcatWords(s[1..]);
    } else {
      var w, rest := FirstWord(s);
      WordsOfWordThen(w, rest);
      assert ([w] + Words(rest))[1..] == Words(rest);
      ConcatWords(rest);
      NonSpaceAppend(w, rest);
      NonSpaceOfWord(w);
    }
  }

  /** Every group of a concatenation of words is itself made of words. */
  lemma {:induction false} ConcatAllWords(groups: seq<seq<string>>, i: nat)
    requires AllWords(Concat(groups)) && i < |groups|
    ensures AllWords(groups[i])
    decreases i
  {
    assert Concat(groups) == groups[0] + Concat(groups[1..]);
    if i > 0 {
      assert forall j :: 0 <= j < |Concat(groups[1..])| ==>
        Concat(groups[1..])[j] == Concat(groups)[|groups[0]| + j];
      ConcatAllWords(groups[1..], i - 1);
    } else {
      assert forall j :: 0 <= j < |groups[0]| ==> groups[0][j] == Concat(groups)[j];
    }
  }
  /** Joining two non-empty lists is joining each and gluing with `sep`. */
  lemma {:induction false} JoinAppend(sep: string, a: seq<string>, b: seq<string>)
    requires |a| > 0 && |b| > 0
    ensures Join(sep, a + b) == Join(sep, a) + sep + Join(sep, b)
    decreases |a|
  {
    if |a| == 1 {
      assert (a + b)[1..] == b;
    } else {
      assert (a + b)[1..] == a[1..] + b;
      JoinAppend(sep, a[1..], b);
    }
  }

  lemma {:induction false} ConcatAppend<T>(a: seq<seq<T>>, b: seq<seq<T>>)
    ensures Concat(a + b) == Concat(a) + Concat(b)
    decreases |a|
  {
    if a == [] {
      assert a + b == b;
    } else {
      assert (a + b)[1..] == a[1..] + b;
      ConcatAppend(a[1..], b);
    }
  }
}

=== FILE: wrappers.dfy ===
/** Option and Result types shared by the model. `None` stands for Python's
    `None` / a missing dictionary key; `Err` for an exception that escapes. */
module Wrappers {

  datatype Option<+T> = None | Some(value: T) {

    /** The value, or `default` when absent (Python's `dict.get(key, default)`). */
    function GetOr(default: T): T {
      match this
      case Some(v) => v
      case None => default
    }
  }

  datatype Result<+T, +E> = Ok(value: T) | Err(error: E)

  /** The values of `rs` when every one succeeded, otherwise the first
      error: a loop whose first exception ends it. */
  function AllOk<T, E>(rs: seq<Result<T, E>>): (r: Result<seq<T>, E>)
    ensures r.Ok? <==> forall i :: 0 <= i < |rs| ==> rs[i].Ok?
    ensures r.Ok? ==> |r.value| == |rs| && forall i :: 0 <= i < |rs| ==> rs[i] == Ok(r.value[i])
    ensures r.Err? ==> exists i :: 0 <= i < |rs| && rs[i] == Err(r.error)
                                   && forall j :: 0 <= j < i ==> rs[j].Ok?
  {
    if rs == [] then Ok([])
    else
      match rs[0]
      case Err(e) => Err(e)
      case Ok(v) =>
        var rest := AllOk(rs[1..]);
        assert forall i :: 1 <= i < |rs| ==> rs[i] == rs[1..][i - 1];
        match rest
        case Err(e) =>
          Err(e)
        case Ok(vs) => Ok([v] + vs)
  }
}
